=== FILE: README.md ===
# TwoStepAuthenticator OTP engine in Dafny

A model of the one-time-password core of TwoStepAuthenticator, with proofs about it. The
core is Google-Authenticator-compatible TOTP (RFC 6238 over the HOTP construction of
RFC 4226). It covers:

- the `Authenticator` operations: `calculateCode`, `getTimeWindowFromTime`, `checkCode`,
  `decodeSecret`, `calculateSecretKey`, `createCredentials`, the scratch-code helpers,
  `authorize`, `getTotpPassword`, and the per-user variants built on the
  credential-repository slot;
- the configuration object `AuthenticatorConfig` with its builder;
- the credential record `AuthenticatorKey` with its builder.

The model follows the code as written:

- `Authenticator.cs` uses Java integer semantics:
  - `/` truncates toward zero;
  - `int` and `long` wrap around;
  - `>>>` is an unsigned shift;
  - `%` and `/` by zero throw.
- Every thrown exception becomes the `Failure` case of a `Result`.

Modules:

| file | module | contents |
|---|---|---|
| `wrappers.dfy` | `Wrappers` | `Option`, `Result` and the error kinds the source throws |
| `arith.dfy` | `Arith` | truncating division, 32/64-bit wrap-around, `(int) Math.Pow(10, d)`, big-endian byte strings |
| `bytes.dfy` | `Bytes` | bytes and their unsigned values |
| `config.dfy` | `Config` | configuration objects, kept in a heap of field records next to the static `codeDigits`; the builder and its setters |
| `key.dfy` | `Key` | the four static fields of the key class, the key builder and `build()` |
| `otp.dfy` | `Otp` | counter encoding, dynamic truncation, `calculateCode`, time steps, the window scan, secret encoding and decoding, `checkCode`, `getTotpPassword`, `authorize` |
| `scratch.dfy` | `Scratch` | `calculateScratchCode`, `validateScratchCode`, `generateScratchCode`, `calculateScratchCodes` |
| `repository.dfy` | `Repository` | the memoised credential-repository lookup |
| `credentials.dfy` | `Credentials` | `createCredentials`, `createCredentials(userName)`, `authorizeUser`, `getTotpPasswordOfUser` |

Foreign code is passed in as a parameter:

- The JCE HMAC, and the Base32 and Base64 codecs, are the function fields of `Otp.Primitives`.
- The predicates `WellFormedMac`, `ReliableMac` and `LawfulCodec` state what the proofs assume of them:
  - digest lengths of 20 and 32 bytes;
  - an HMAC that never fails on a non-empty key;
  - codec round trips, and upper-case Base32 output.
- The secure random generator is a finite byte stream.
- The service loader is the list of implementations it would yield.
- The repository's `getSecretKey` is a function.

Three features of the code shape the model:

- **Window bounds.** `checkCode` computes its window bounds with Java's truncating `/` (`TwoStepAuthenticator/Authenticator.cs:244`), not with floor division. A window of 0 therefore still examines the current step (`Otp.WindowCoversExactlyWindowSteps`).
- **Static fields.** Several fields are shared by all instances:
  - `codeDigits` is a static field of `AuthenticatorConfig` (`TwoStepAuthenticator/AuthenticatorConfig.cs:14`);
  - all four fields of `AuthenticatorKey` are static (`TwoStepAuthenticator/AuthenticatorKey.cs:14-29`);
  - configuration builders hand out the object they keep mutating.

  The model keeps these statics and this aliasing (`Config.CodeDigitsIsShared`, `Config.BuildAliasesOneInstance`, `Key.BuildKey`).
- **Inactive range checks.** The range checks of the configuration setters and of the key constructor are commented out (`TwoStepAuthenticator/AuthenticatorConfig.cs:103-160`, `TwoStepAuthenticator/AuthenticatorKey.cs:45-58`). Every value is therefore accepted.

## Model

| member | source | states |
|---|---|---|
| Arith.TDiv | TwoStepAuthenticator/Authenticator.cs:212-215 | the quotient truncates toward zero: the remainder has the dividend's sign and is smaller than the divisor in magnitude, and the quotient is no larger than the dividend in magnitude |
| Arith.Wrap32 | TwoStepAuthenticator/Authenticator.cs:376-379 | an `int` result wraps: it is congruent to the mathematical value modulo 2^32 and equal to it when it fits, as for `(scratchCode << 8) + …` here and for `window - 1` at line 244 |
| Arith.Wrap64 | TwoStepAuthenticator/Authenticator.cs:247 | a `long` sum wraps: the result is congruent to the mathematical sum modulo 2^64, and equal to it when it fits |
| Arith.Pow10Int | TwoStepAuthenticator/AuthenticatorConfig.cs:15 | `(int) Math.Pow(10, d)` stays below 2^31, is 10^d for 0..9 digits, and is 0 exactly for negative d |
| Arith.BigEndianOfToBigEndian | TwoStepAuthenticator/Authenticator.cs:153-160 | writing the low bytes of a value most significant first and reading them back gives the value modulo 256^n |
| Arith.ToBigEndianOfBigEndian | TwoStepAuthenticator/Authenticator.cs:153-160 | writing back the value of a byte string reproduces the string, so the encoding is a bijection |
| Config.NewConfig | TwoStepAuthenticator/AuthenticatorConfig.cs:12-17 | a new configuration has a 30 000 ms step, a window of 3, Base32 keys, HMAC-SHA1 and the modulus `(int) Math.pow(10, codeDigits)` of the static digit count (10^codeDigits for 0..9 digits), and no other object changes |
| Config.FreshConfigDefaults | TwoStepAuthenticator/AuthenticatorConfig.cs:12-17 | from the initial state the configuration has 6 digits and modulus 1 000 000 = 10^6 |
| Config.NewConfigBuilder | TwoStepAuthenticator/AuthenticatorConfig.cs:92-94 | a builder allocates a fresh configuration and leaves every existing one in place |
| Config.SetCodeDigits | TwoStepAuthenticator/AuthenticatorConfig.cs:101-121 | the static digit count changes for every configuration; only the builder's own modulus is recomputed (10^d, 0 for negative d, `int.MaxValue` above 9); nothing else changes |
| Config.SetTimeStepSizeInMillis | TwoStepAuthenticator/AuthenticatorConfig.cs:123-132 | any step size is stored in the builder's configuration, and every other field and object is unchanged |
| Config.SetWindowSize | TwoStepAuthenticator/AuthenticatorConfig.cs:134-143 | any window size is stored, and every other field and object is unchanged |
| Config.SetKeyRepresentation | TwoStepAuthenticator/AuthenticatorConfig.cs:145-154 | the representation is stored, and every other field and object is unchanged |
| Config.SetHmacHashFunction | TwoStepAuthenticator/AuthenticatorConfig.cs:156-165 | the hash function is stored, and every other field and object is unchanged |
| Config.SetCodeDigitsKeepsModulusCoupled | TwoStepAuthenticator/AuthenticatorConfig.cs:118-119 | after setting 0..9 digits, the builder's configuration has keyModulus = 10^getCodeDigits() |
| Config.CodeDigitsIsShared | TwoStepAuthenticator/AuthenticatorConfig.cs:14-47 | `getCodeDigits()` (`Config.GetCodeDigits`) reads the static field: setting the digits through one builder changes what every other configuration reports but not its modulus, which then no longer matches |
| Config.BuildAliasesOneInstance | TwoStepAuthenticator/AuthenticatorConfig.cs:94-99 | `build()` (`Config.Build`) returns the builder's own object, so a later setter call is visible through an earlier build |
| Key.NewKeyBuilder | TwoStepAuthenticator/AuthenticatorKey.cs:111-125 | a key builder starts with the given key, code 0, an empty list and a freshly allocated default configuration |
| Key.BuildKey | TwoStepAuthenticator/AuthenticatorKey.cs:40-64 | building fails exactly on a null scratch list; config, key and code are overwritten for every key either way, the list only on success |
| Key.SetConfig | TwoStepAuthenticator/AuthenticatorKey.cs:144-148 | stores any configuration, null included, and leaves the builder's other fields unchanged |
| Key.SetKey | TwoStepAuthenticator/AuthenticatorKey.cs:156-160 | stores any secret, null included, and leaves the builder's other fields unchanged |
| Key.SetVerificationCode | TwoStepAuthenticator/AuthenticatorKey.cs:168-172 | stores any code and leaves the builder's other fields unchanged |
| Key.SetScratchCodes | TwoStepAuthenticator/AuthenticatorKey.cs:180-184 | stores any list, null included, and leaves the builder's other fields unchanged |
| Key.BuilderChainReadsBack | TwoStepAuthenticator/AuthenticatorKey.cs:71-184 | the setter chain followed by `build()` yields getters (`Key.GetConfig`, `Key.GetKey`, `Key.GetVerificationCode`, `Key.GetScratchCodes`, which read the static fields) that return exactly the values given, and otherwise the builder defaults |
| Otp.CounterBytes | TwoStepAuthenticator/Authenticator.cs:150-160 | the HMAC message is 8 bytes whose big-endian value is the counter modulo 2^64 |
| Otp.CounterBytesInjective | TwoStepAuthenticator/Authenticator.cs:150-160 | distinct counters give distinct HMAC messages |
| Otp.DynamicTruncation | TwoStepAuthenticator/Authenticator.cs:178-195 | the offset `hash[hash.length - 1] & 0xF` (`Otp.TruncationOffset`) is at most 15, and the truncated value is below 2^31 |
| Otp.TruncationMatchesRfc | TwoStepAuthenticator/Authenticator.cs:178-195 | the shift-and-mask loop equals dynamic truncation as section 5.3 of RFC 4226 writes it |
| Otp.CalculateCode | TwoStepAuthenticator/Authenticator.cs:148-210 | an empty key is an argument error that escapes, because `SecretKeySpec` is built before the `try`; a refused HMAC is the generic operation error and a zero modulus throws; otherwise the code lies in [0, keyModulus) and is the RFC truncation of the digest modulo keyModulus |
| Otp.CodeDependsOnlyOnHashAndModulus | TwoStepAuthenticator/Authenticator.cs:148-199 | two configurations with the same hash function and modulus give the same code |
| Otp.RfcVectors | TwoStepAuthenticator/Authenticator.cs:148-199 | with the digests of appendix D of RFC 4226, counters 0, 1 and 2 give 755224, 287082 and 359152 |
| Otp.TimeWindow | TwoStepAuthenticator/Authenticator.cs:212-215 | fails exactly on a zero step; for a positive step the result is the step containing the time (rounded toward zero for negative times); for a negative step the remainder keeps the time's sign; `Long.MIN_VALUE / -1` wraps |
| Otp.WindowCoversExactlyWindowSteps | TwoStepAuthenticator/Authenticator.cs:244 | a positive window examines exactly `window` offsets (-1..1 for 3); a window of 0 examines offset 0; a negative window examines none |
| Otp.WindowStart | TwoStepAuthenticator/Authenticator.cs:244 | the first offset is the negation of (window - 1) / 2 truncated toward zero; for `int.MinValue` the subtraction wraps, so the first offset is -(2^30 - 1) |
| Otp.WindowEnd | TwoStepAuthenticator/Authenticator.cs:244 | the last offset is window / 2 truncated toward zero |
| Otp.ScanWindow | TwoStepAuthenticator/Authenticator.cs:244-258 | for any HMAC, the loop answers true only when some offset in the range reproduces the code, and false only when none does |
| Otp.ScanWindowFindsMatch | TwoStepAuthenticator/Authenticator.cs:244-258 | with a working HMAC, the loop returns true exactly when some offset in the range reproduces the code; an empty key fails at the first offset |
| Otp.DecodeSecret | TwoStepAuthenticator/Authenticator.cs:261-277 | decoding fails, with an argument error, exactly for a representation other than Base32 or Base64 |
| Otp.CalculateSecretKey | TwoStepAuthenticator/Authenticator.cs:467-478 | encoding fails, with an argument error, exactly for a representation other than Base32 or Base64 |
| Otp.SecretRoundTrip | TwoStepAuthenticator/Authenticator.cs:261-277 | decoding a rendered secret gives back the key bytes, for both representations |
| Otp.Base32IgnoresCase | TwoStepAuthenticator/Authenticator.cs:266-270 | where upper-casing maps ASCII letters to ASCII letters, a lower-cased Base32 secret decodes to the same key |
| Otp.CheckCode | TwoStepAuthenticator/Authenticator.cs:229-258 | an unknown representation and a zero step fail; whenever `checkCode` answers, for any HMAC, it answers true exactly when some offset from -((window-1)/2) to window/2 reproduces the code |
| Otp.CheckCodeAcceptsExactlyTheWindow | TwoStepAuthenticator/Authenticator.cs:229-258 | with a working HMAC, a positive modulus, a non-zero step and a known representation, `checkCode` answers, and accepts exactly when some offset from -((window-1)/2) to window/2 reproduces the code; an empty decoded key fails instead when the window is non-empty |
| Otp.WindowOfThree | TwoStepAuthenticator/Authenticator.cs:244 | with window 3, exactly the previous, current and next steps are accepted; an empty decoded key fails |
| Otp.GetTotpPassword | TwoStepAuthenticator/Authenticator.cs:442-445 | an unknown representation fails before the secret is read, and a null secret fails after that; a password is the code of the decoded key at the time step containing `time`, in [0, keyModulus); with a working HMAC, a positive modulus, a non-zero step and a non-empty decoded key, the call succeeds |
| Otp.Authorize | TwoStepAuthenticator/Authenticator.cs:488-509 | a null secret is an argument error; codes outside (0, keyModulus) are refused; otherwise the answer is `checkCode` with the configured window |
| Otp.AuthorizeBoundsNeedNoHmac | TwoStepAuthenticator/Authenticator.cs:498-501 | out-of-bounds codes are decided without consulting the HMAC or the codecs |
| Otp.IssuedPasswordAuthorizes | TwoStepAuthenticator/Authenticator.cs:488-509 | the password `getTotpPassword` issues is accepted by `authorize` at the same instant for any non-negative window, unless it is 0, which the lower bound refuses; a secret that decodes to no bytes gets no password |
| Scratch.ValidateScratchCode | TwoStepAuthenticator/Authenticator.cs:396-399 | below 10^8, `validateScratchCode` accepts exactly the values with eight significant digits |
| Scratch.AccumulateIsBigEndian | TwoStepAuthenticator/Authenticator.cs:374-379 | despite the 32-bit wrap of `<< 8` and `+`, the `int` the loop accumulates (`Scratch.Accumulate32`) agrees with the bytes' unsigned big-endian value modulo 2^32 |
| Scratch.CalculateScratchCode | TwoStepAuthenticator/Authenticator.cs:364-393 | fails exactly on a buffer shorter than 4 bytes; otherwise -1 exactly when the masked value has fewer than eight digits, else that value |
| Scratch.NextBytes | TwoStepAuthenticator/Authenticator.cs:413-414 | `nextBytes` on an n-byte buffer takes the next n bytes of the stream, and fails exactly when fewer remain |
| Scratch.GenerateScratchCode | TwoStepAuthenticator/Authenticator.cs:409-423 | returns a valid code read from the last four-byte draw, all earlier draws rejected; fails, with the entropy error, exactly when every complete four-byte draw of the stream is rejected |
| Scratch.CopyOfRange | TwoStepAuthenticator/Authenticator.cs:336-339 | `Arrays.copyOfRange` fails exactly on a start past the end, and pads with zero bytes past the end |
| Scratch.NextScratchCode | TwoStepAuthenticator/Authenticator.cs:336-351 | one loop round yields a valid code; when its buffer slice is valid it succeeds with that slice's code, without touching the random stream |
| Scratch.NextScratchCodeDraws | TwoStepAuthenticator/Authenticator.cs:341-350 | a slice inside the buffer that gives no valid code is replaced by exactly what `generateScratchCode()` draws from the stream, and every round leaves the stream after whole four-byte draws |
| Scratch.CalculateScratchCodes | TwoStepAuthenticator/Authenticator.cs:330-354 | exactly five valid codes (`Scratch.ScratchCodesOf`); code k is read from bytes 10+4k..14+4k whenever they give a valid code; otherwise it is the code of one `generateScratchCode()` run, and the runs of successive rejected slices follow each other through the stream, which is left after whole draws (`Scratch.DrawnInOrder`); when all five slices are valid, the call succeeds and leaves the random stream untouched |
| Scratch.ScratchCodesDrawInTurn | TwoStepAuthenticator/Authenticator.cs:336-351 | from any round on, the rounds consume the stream one after another: a valid slice takes nothing, a rejected slice inside the buffer takes exactly one `generateScratchCode()` run ending in its code, and each round starts where the previous one stopped |
| Scratch.DrawsInTurnAreSuccessive | TwoStepAuthenticator/Authenticator.cs:341-350 | in that schedule, every rejected slice inside the buffer takes at least one four-byte draw of its own, after the draws of all earlier rounds; its code is the value of the last of them; the stream is consumed in whole draws up to the rest |
| Scratch.RejectedSlicesTakeDistinctDraws | TwoStepAuthenticator/Authenticator.cs:341-350 | two rejected slices inside the buffer never share a draw: the earlier slice's code is the value of an earlier four-byte draw than the later slice's, both consumed before the rest |
| Repository.GetCredentialRepository | TwoStepAuthenticator/Authenticator.cs:558-575 | the first lookup returns the first discovered implementation, or null, and marks the slot searched; later lookups return the stored value unchanged |
| Repository.GetValidCredentialRepository | TwoStepAuthenticator/Authenticator.cs:534-549 | the lookup, failing with an unsupported-operation error exactly when it yields null |
| Repository.DiscoveryIsMemoised | TwoStepAuthenticator/Authenticator.cs:558-575 | a second lookup changes nothing and returns the first result, whatever the loader now yields |
| Repository.SetCredentialRepository | TwoStepAuthenticator/Authenticator.cs:578-582 | stores the given repository, null included, marks the slot searched and keeps the slot consistent |
| Repository.SetOverridesDiscovery | TwoStepAuthenticator/Authenticator.cs:578-582 | after a set, lookups return exactly the stored value, null included, without discovery |
| Repository.OperationsKeepSlotConsistent | TwoStepAuthenticator/Authenticator.cs:558-582 | every operation keeps "unsearched implies empty" and leaves the slot searched |
| Credentials.CalculateValidationCode | TwoStepAuthenticator/Authenticator.cs:431-434 | the validation code is the code of the all-zero eight-byte counter |
| Credentials.CreateCredentials | TwoStepAuthenticator/Authenticator.cs:280-306 | fewer than 30 random bytes is the entropy error, and an unknown representation an argument error; with a working HMAC, a positive modulus, a known representation and five valid buffer slices, it succeeds and leaves the stream after the 30 bytes; on success the key is the rendering of the first 10 bytes, the verification code is their code at step 0, and the list holds five valid codes, each from its buffer slice where valid and otherwise from its own `generateScratchCode()` run, the runs following each other through the stream after the 30 bytes; the configuration is untouched |
| Credentials.CreatedCodeValidatesAtEpoch | TwoStepAuthenticator/Authenticator.cs:280-306 | the verification code of new credentials is accepted by `checkCode` at time 0 with a one-step window |
| Credentials.CreateCredentialsFor | TwoStepAuthenticator/Authenticator.cs:310-328 | a null user name is an argument error; a failed creation propagates; after a creation the lookup runs, and the new credentials and the searched slot survive even when no repository is found, in which case the call fails; otherwise the repository receives exactly the new key's secret, code and scratch codes |
| Credentials.AuthorizeUser | TwoStepAuthenticator/Authenticator.cs:519-524 | fails without a repository; otherwise `authorize` on the repository's secret for the user name, which is passed on unchecked, null included |
| Credentials.GetTotpPasswordOfUser | TwoStepAuthenticator/Authenticator.cs:452-459 | fails without a repository; otherwise `getTotpPassword` on the repository's secret for the user name, which is passed on unchecked, null included |

## Left out

- The HMAC and the Base32 and Base64 codecs are not modelled. They are foreign classes, so they appear as function parameters with stated assumptions.
- `ReseedingSecureRandom` is not modelled. Its reseeding is a concurrency and randomness concern; random bytes are a finite stream instead.
- Scratch.GenerateScratchCode: the source loops until a valid code appears. The model reports `EntropyExhausted` when the stream runs out first, so termination is not claimed.
- The overloads that read the wall clock (`new Date().getTime()`) are left out. They pass the current time to the modelled overloads, which take the time as a parameter.
- Logging is left out, as are the system properties naming the RNG algorithm and provider. Neither affects results.
- The `Authenticator` constructor's null-configuration check is left out. A configuration is always a valid reference here.
- Null values of the enum-typed configuration fields are left out; C# enums are never null. An out-of-range representation is modelled by `OtherRepresentation`.
- `SecretKeySpec` refuses an empty key before the `try` of `calculateCode`. The model returns that argument error before calling the HMAC. A null key cannot reach it in the model, because the codecs are total functions.
- Scratch.CalculateScratchCodes: for a slice that starts inside a buffer shorter than 30 bytes but runs past its end, `Arrays.copyOfRange` pads it with zeros. For such a slice the schedule says only that the round takes whole draws. `createCredentials` always passes a 30-byte buffer.
- Otp.ToUpper: `toUpperCase` is modelled for ASCII letters only, which is the Base32 alphabet.
- Otp.Base32IgnoresCase: `toUpperCase()` at Authenticator.cs:270 takes no locale and so follows the default one. The model assumes a default locale that upper-cases ASCII letters to ASCII letters. Under a Turkish or Azeri locale, 'i' becomes 'İ' (U+0130), which is not in the Base32 alphabet, so there a lower-cased secret containing 'i' does not decode to the same key.
- Otp.GetTotpPassword: with a known representation, a null secret is treated as a null-reference failure. Under Base32, `toUpperCase` on null throws that. Under Base64, what the codec does with null is foreign behaviour.
- Arith.Pow10Int: above 9 digits the `(int)` cast of `Math.Pow` is modelled as saturating to `int.MaxValue`, as Java and current .NET define it. Older .NET runtimes give an unspecified value there.
- Credentials.CreateCredentials: the contract describes the successful result. On a failure after some state was written, the partial state changes are not described.
- Key.SetConfig, Key.SetKey, Key.SetVerificationCode, Key.SetScratchCodes: key builders are values, so each setter yields an updated builder instead of returning `this`. Aliasing of one key builder through several references is therefore not modelled, unlike configuration builders. The fluent chain gives the same key either way.
- Lists are values. The copy `new List<int>(...)` in the key constructor is therefore implicit.
- `InterfaceAuthenticator.cs` and `InterfaceCredentialRepository.cs` only declare signatures, and `AuthenticatorException.cs` is a plain exception class. These files are not part of this model.

=== FILE: arith.dfy ===
/** Fixed-width Java integer arithmetic and big-endian byte encodings, written out over
    Dafny's unbounded integers. */
module Arith {
  import opened Bytes

  const TWO_8: int := 0x100
  const TWO_31: int := 0x8000_0000
  const TWO_32: int := 0x1_0000_0000
  const TWO_63: int := 0x8000_0000_0000_0000
  const TWO_64: int := 0x1_0000_0000_0000_0000

  /** Values of a Java/C# `int`. */
  type Int32 = x: int | -0x8000_0000 <= x < 0x8000_0000

  /** Values of a Java/C# `long`. */
  type Int64 = x: int | -0x8000_0000_0000_0000 <= x < 0x8000_0000_0000_0000

  function Pow(b: int, e: nat): (r: int)
    ensures b > 0 ==> r > 0
  {
    if e == 0 then 1 else b * Pow(b, e - 1)
  }

  function Abs(x: int): int
  {
    if x < 0 then -x else x
  }

  /** Integer division as Java and C# define it: the quotient is truncated toward zero. */
  function TDiv(a: int, b: int): (q: int)
    requires b != 0
    ensures a >= 0 ==> 0 <= a - q * b < Abs(b)
    ensures a < 0 ==> -Abs(b) < a - q * b <= 0
    ensures Abs(q) <= Abs(a)
  {
    var k := Abs(a) / Abs(b);
    var q := if (a >= 0) == (b > 0) then k else -k;
    TDivBounds(a, b, k, q);
    q
  }

  lemma TDivBounds(a: int, b: int, k: int, q: int)
    requires b != 0 && k == Abs(a) / Abs(b)
    requires q == if (a >= 0) == (b > 0) then k else -k
    ensures a >= 0 ==> 0 <= a - q * b < Abs(b)
    ensures a < 0 ==> -Abs(b) < a - q * b <= 0
    ensures Abs(q) <= Abs(a)
  {
    DivFacts(Abs(a), Abs(b));
    SignedProduct(a, b, k, q);
  }

  /** `q * b` has the magnitude of `k * |b|` and the sign of `a`. */
  lemma SignedProduct(a: int, b: int, k: int, q: int)
    requires b != 0
    requires q == if (a >= 0) == (b > 0) then k else -k
    ensures q * b == if a >= 0 then k * Abs(b) else -(k * Abs(b))
  {
    if b > 0 {
      assert Abs(b) == b;
    } else {
      assert Abs(b) == -b;
    }
  }

  /** Euclidean division of non-negative numbers, with the quotient bounded by the dividend. */
  lemma DivFacts(x: nat, y: int)
    requires y > 0
    ensures 0 <= x - (x / y) * y < y
    ensures 0 <= x / y <= x
  {
    assert x == (x / y) * y + x % y;
    MulAtLeastFactor(x / y, y);
  }

  lemma {:induction false} MulAtLeastFactor(k: nat, y: int)
    requires y >= 1
    ensures k * y >= k
  {
    if k > 0 {
      MulAtLeastFactor(k - 1, y);
      assert k * y == (k - 1) * y + y;
    }
  }

  /** Two's-complement wrap-around of a mathematical integer into an `int`. */
  function Wrap32(x: int): (r: Int32)
    ensures r % TWO_32 == x % TWO_32
    ensures -TWO_31 <= x < TWO_31 ==> r == x
  {
    (x + TWO_31) % TWO_32 - TWO_31
  }

  /** Two's-complement wrap-around of a mathematical integer into a `long`. */
  function Wrap64(x: int): (r: Int64)
    ensures r % TWO_64 == x % TWO_64
    ensures -TWO_63 <= x < TWO_63 ==> r == x
  {
    (x + TWO_63) % TWO_64 - TWO_63
  }

  /** `(int) Math.Pow(10, d)`: a negative exponent gives a fraction that the cast truncates
      to 0, and a value above `int.MaxValue` saturates. */
  function Pow10Int(d: int): (r: nat)
    ensures r < TWO_31
    ensures 0 <= d <= 9 ==> r == Pow(10, d)
    ensures d < 0 <==> r == 0
  {
    if d < 0 then 0
    else if d <= 9 then
      assert Pow(10, 9) == 1_000_000_000;
      PowMonotone(10, d, 9);
      Pow(10, d)
    else TWO_31 - 1
  }

  lemma {:induction false} PowMonotone(b: int, d: nat, e: nat)
    requires b > 0 && d <= e
    ensures Pow(b, d) <= Pow(b, e)
  {
    if d < e {
      PowMonotone(b, d, e - 1);
    }
  }

  /** The unsigned number whose big-endian byte string is `s`. */
  function BigEndian(s: seq<bv8>): (n: nat)
    ensures n < Pow(256, |s|)
  {
    if |s| == 0 then 0
    else BigEndian(s[..|s| - 1]) * 256 + s[|s| - 1] as int
  }

  /** The `n` low-order bytes of `v`, most significant first: `n` rounds of "store the
      low byte, shift right by 8". */
  function ToBigEndian(v: nat, n: nat): (s: seq<bv8>)
    ensures |s| == n
  {
    if n == 0 then [] else ToBigEndian(v / 256, n - 1) + [ByteOf(v % 256)]
  }

  lemma ModOfShifted(v: nat, p: nat)
    requires p > 0
    ensures ((v / 256) % p) * 256 + v % 256 == v % (256 * p)
  {
    var q := v / 256;
    var a := q / p;
    var b := q % p;
    assert v == 256 * q + v % 256;
    assert q == p * a + b;
    assert v == (256 * p) * a + (256 * b + v % 256);
    assert 0 <= 256 * b + v % 256 < 256 * p;
    LemmaModUnique(v, 256 * p, a, 256 * b + v % 256);
  }

  lemma LemmaModUnique(v: int, m: int, a: int, r: int)
    requires m > 0 && 0 <= r < m && v == m * a + r
    ensures v % m == r
  {
    var q := v / m;
    var k := a - q;
    assert m * k == v % m - r by {
      assert m * q + v % m == v;
      assert m * k == m * a - m * q;
    }
    if k > 0 {
      MulAtLeast(m, k);
      assert false;
    } else if k < 0 {
      MulAtLeast(m, -k);
      assert false;
    }
  }

  lemma MulAtLeast(m: int, k: int)
    requires m > 0 && k >= 1
    ensures m * k >= m
  {
  }

  /** Reading back the bytes written by `ToBigEndian` gives the value modulo 256^n. */
  lemma {:induction false} BigEndianOfToBigEndian(v: nat, n: nat)
    ensures BigEndian(ToBigEndian(v, n)) == v % Pow(256, n)
  {
    if n > 0 {
      var s := ToBigEndian(v, n);
      var p := Pow(256, n - 1);
      var high := BigEndian(s[..n - 1]);
      var low := s[n - 1] as int;
      assert BigEndian(s) == high * 256 + low;
      assert high == (v / 256) % p by {
        assert s == ToBigEndian(v / 256, n - 1) + [ByteOf(v % 256)];
        assert s[..n - 1] == ToBigEndian(v / 256, n - 1);
        BigEndianOfToBigEndian(v / 256, n - 1);
      }
      assert low == v % 256;
      assert Pow(256, n) == 256 * p;
      ModOfShifted(v, p);
    }
  }

  /** Quotient and remainder by 256 are unique. */
  lemma LemmaDivModUnique(v: int, q: int, r: int)
    requires 0 <= r < 256 && v == q * 256 + r
    ensures v / 256 == q && v % 256 == r
  {
  }

  /** Writing out the value of a byte string at its own width gives the string back. */
  lemma {:induction false} ToBigEndianOfBigEndian(s: seq<bv8>)
    ensures ToBigEndian(BigEndian(s), |s|) == s
  {
    if |s| > 0 {
      var init := s[..|s| - 1];
      var last := s[|s| - 1];
      var v := BigEndian(s);
      var high := BigEndian(init);
      assert v / 256 == high && v % 256 == last as int by {
        assert v == high * 256 + last as int;
        LemmaDivModUnique(v, high, last as int);
      }
      assert ByteOf(v % 256) == last by {
        ValueInjective(ByteOf(v % 256), last);
      }
      assert ToBigEndian(high, |s| - 1) == init by {
        ToBigEndianOfBigEndian(init);
      }
      assert ToBigEndian(v, |s|) == ToBigEndian(v / 256, |s| - 1) + [ByteOf(v % 256)];
      assert s == init + [last];
    }
  }
}

=== FILE: bytes.dfy ===
/** Bytes and their unsigned integer values. The byte with a given value is built bit by
    bit, so that every fact here is a fact about bit-vector operations on bytes. */
module Bytes {

  /** The byte whose unsigned value is `x`: Java's `(byte) x` for `0 <= x < 256`. */
  function ByteOf(x: int): (b: bv8)
    requires 0 <= x < 256
    ensures b as int == x
    decreases x
  {
    if x == 0 then 0
    else
      var high := ByteOf(x / 2);
      var bit: bv8 := if x % 2 == 1 then 1 else 0;
      ShiftOr(high, bit);
      (high << 1) | bit
  }

  lemma ShiftOr(high: bv8, bit: bv8)
    requires high < 128 && bit <= 1
    ensures ((high << 1) | bit) as int == 2 * (high as int) + bit as int
  {
  }

  /** Two bytes with the same unsigned value are the same byte. */
  lemma ValueInjective(a: bv8, b: bv8)
    requires a as int == b as int
    ensures a == b
  {
  }

  /** Masking with `0x7F` keeps the value modulo 128. */
  lemma ByteLowBits(b: bv8)
    ensures (b & 0x7F) as int == (b as int) % 128
  {
  }
}

=== FILE: config.dfy ===
/** `AuthenticatorConfig` and its builder. Configurations are mutable objects that
    builders alias, and `codeDigits` is a static field shared by all of them, so the model
    keeps every configuration object in one `ConfigWorld`: a heap of field records indexed
    by reference, plus the single static `codeDigits`. */
module Config {
  import opened Arith

  /** How a secret key is rendered as text. A C# enum variable may hold a value outside
      its named members; `OtherRepresentation` stands for any such value. */
  datatype KeyRepresentation = BASE32 | BASE64 | OtherRepresentation

  /** The HMAC algorithm used to compute codes. */
  datatype HmacHashFunction = HmacSHA1 | HmacSHA256

  /** Length in bytes of the digest each HMAC algorithm produces. */
  function DigestLength(h: HmacHashFunction): nat
  {
    match h
    case HmacSHA1 => 20
    case HmacSHA256 => 32
  }

  /** A value `(int) Math.Pow(10, d)` can take: never negative and at most `int.MaxValue`. */
  type Modulus = m: int | 0 <= m < 0x8000_0000

  /** The instance fields of one configuration object. */
  datatype ConfigFields = ConfigFields(
    timeStepSizeInMillis: Int64,
    windowSize: Int32,
    keyModulus: Modulus,
    keyRepresentation: KeyRepresentation,
    hmacHashFunction: HmacHashFunction)

  /** A reference to a configuration object: its index in the heap. */
  type ConfigRef = nat

  /** Every configuration object allocated so far, and the static `codeDigits`. */
  datatype ConfigWorld = ConfigWorld(codeDigits: Int32, configs: seq<ConfigFields>) {
    predicate Holds(r: ConfigRef) {
      r < |configs|
    }
  }

  const DEFAULT_TIME_STEP_MILLIS: Int64 := 30_000
  const DEFAULT_WINDOW_SIZE: Int32 := 3
  const DEFAULT_CODE_DIGITS: Int32 := 6

  /** The state before any configuration is built: only the static initialiser has run. */
  function InitialWorld(): ConfigWorld
  {
    ConfigWorld(DEFAULT_CODE_DIGITS, [])
  }

  /** The result of an allocation: the grown heap and the new object's reference. */
  datatype Allocated = Allocated(world: ConfigWorld, ref: ConfigRef)

  /** `new AuthenticatorConfig()`: the field initialisers run, and `keyModulus` is computed
      from the static `codeDigits` as it stands at that moment. */
  function NewConfig(w: ConfigWorld): (a: Allocated)
    ensures a.ref == |w.configs| && a.world.Holds(a.ref)
    ensures a.world.codeDigits == w.codeDigits
    ensures a.world.configs[..|w.configs|] == w.configs
    ensures var c := a.world.configs[a.ref];
      && c.timeStepSizeInMillis == 30_000
      && c.windowSize == 3
      && c.keyModulus == Pow10Int(w.codeDigits)
      && (0 <= w.codeDigits <= 9 ==> c.keyModulus == Pow(10, w.codeDigits))
      && c.keyRepresentation == BASE32
      && c.hmacHashFunction == HmacSHA1
  {
    var fields := ConfigFields(
      DEFAULT_TIME_STEP_MILLIS, DEFAULT_WINDOW_SIZE, Pow10Int(w.codeDigits), BASE32, HmacSHA1);
    Allocated(ConfigWorld(w.codeDigits, w.configs + [fields]), |w.configs|)
  }

  /** `getCodeDigits()`: an instance getter that reads the static field. */
  function GetCodeDigits(w: ConfigWorld, r: ConfigRef): Int32
    requires w.Holds(r)
  {
    w.codeDigits
  }

  /** A fresh configuration starts with the documented defaults, as long as no builder has
      changed the static digit count. */
  lemma FreshConfigDefaults()
    ensures var a := NewConfig(InitialWorld());
      var c := a.world.configs[a.ref];
      && c == ConfigFields(30_000, 3, 1_000_000, BASE32, HmacSHA1)
      && GetCodeDigits(a.world, a.ref) == 6
      && c.keyModulus == Pow(10, GetCodeDigits(a.world, a.ref))
  {
    assert Pow(10, 6) == 1_000_000;
  }

  /** An `AuthenticatorConfigBuilder`: it owns the reference of the configuration it fills. */
  datatype ConfigBuilder = ConfigBuilder(config: ConfigRef)

  /** `new AuthenticatorConfigBuilder()`: allocates the configuration it will hand out. */
  function NewConfigBuilder(w: ConfigWorld): (p: (ConfigWorld, ConfigBuilder))
    ensures p.0.Holds(p.1.config) && p.1.config == |w.configs|
    ensures p.0.configs[..|w.configs|] == w.configs
  {
    var a := NewConfig(w);
    (a.world, ConfigBuilder(a.ref))
  }

  /** `build()` hands out the builder's own object; it does not copy it. */
  function Build(b: ConfigBuilder): ConfigRef
  {
    b.config
  }

  /** Replace the fields of one configuration object. */
  function Store(w: ConfigWorld, r: ConfigRef, c: ConfigFields): (w': ConfigWorld)
    requires w.Holds(r)
    ensures |w'.configs| == |w.configs| && w'.codeDigits == w.codeDigits
  {
    w.(configs := w.configs[r := c])
  }

  /** Two heaps that differ at most in one field of one object. */
  predicate OnlyFieldChanged(w: ConfigWorld, w': ConfigWorld, r: ConfigRef, updated: ConfigFields)
    requires w.Holds(r)
  {
    && w'.codeDigits == w.codeDigits
    && |w'.configs| == |w.configs|
    && w'.configs[r] == updated
    && forall q :: 0 <= q < |w.configs| && q != r ==> w'.configs[q] == w.configs[q]
  }

  /** `setCodeDigits(d)`: no range check is active, so any `d` is accepted. The static digit
      count changes for every configuration; the modulus only for the builder's own one. */
  function SetCodeDigits(w: ConfigWorld, b: ConfigBuilder, d: Int32): (w': ConfigWorld)
    requires w.Holds(b.config)
    ensures |w'.configs| == |w.configs|
    ensures w'.codeDigits == d
    ensures 0 <= d <= 9 ==> w'.configs[b.config].keyModulus == Pow(10, d)
    ensures d < 0 ==> w'.configs[b.config].keyModulus == 0
    ensures d > 9 ==> w'.configs[b.config].keyModulus == TWO_31 - 1
    ensures w'.configs[b.config] == w.configs[b.config].(keyModulus := w'.configs[b.config].keyModulus)
    ensures forall r :: 0 <= r < |w.configs| && r != b.config ==> w'.configs[r] == w.configs[r]
  {
    var c := w.configs[b.config];
    Store(w, b.config, c.(keyModulus := Pow10Int(d))).(codeDigits := d)
  }

  /** `setTimeStepSizeInMillis(t)`: stored as given; the positivity check is inactive. */
  function SetTimeStepSizeInMillis(w: ConfigWorld, b: ConfigBuilder, t: Int64): (w': ConfigWorld)
    requires w.Holds(b.config)
    ensures OnlyFieldChanged(w, w', b.config, w.configs[b.config].(timeStepSizeInMillis := t))
  {
    Store(w, b.config, w.configs[b.config].(timeStepSizeInMillis := t))
  }

  /** `setWindowSize(n)`: stored as given; the positivity check is inactive. */
  function SetWindowSize(w: ConfigWorld, b: ConfigBuilder, n: Int32): (w': ConfigWorld)
    requires w.Holds(b.config)
    ensures OnlyFieldChanged(w, w', b.config, w.configs[b.config].(windowSize := n))
  {
    Store(w, b.config, w.configs[b.config].(windowSize := n))
  }

  /** `setKeyRepresentation(k)`: stored as given; the null check is inactive. */
  function SetKeyRepresentation(w: ConfigWorld, b: ConfigBuilder, k: KeyRepresentation): (w': ConfigWorld)
    requires w.Holds(b.config)
    ensures OnlyFieldChanged(w, w', b.config, w.configs[b.config].(keyRepresentation := k))
  {
    Store(w, b.config, w.configs[b.config].(keyRepresentation := k))
  }

  /** `setHmacHashFunction(h)`: stored as given; the null check is inactive. */
  function SetHmacHashFunction(w: ConfigWorld, b: ConfigBuilder, h: HmacHashFunction): (w': ConfigWorld)
    requires w.Holds(b.config)
    ensures OnlyFieldChanged(w, w', b.config, w.configs[b.config].(hmacHashFunction := h))
  {
    Store(w, b.config, w.configs[b.config].(hmacHashFunction := h))
  }

  /** Right after `setCodeDigits(d)` with `0 <= d <= 9`, the builder's configuration keeps
      `keyModulus == 10^getCodeDigits()`. */
  lemma SetCodeDigitsKeepsModulusCoupled(w: ConfigWorld, b: ConfigBuilder, d: Int32)
    requires w.Holds(b.config) && 0 <= d <= 9
    ensures var w' := SetCodeDigits(w, b, d);
      w'.configs[b.config].keyModulus == Pow(10, GetCodeDigits(w', Build(b)))
  {
  }

  /** Because `codeDigits` is static, setting it through one builder changes what every
      other configuration reports, while their moduli stay as they were; the coupling
      `keyModulus == 10^codeDigits` then fails for them. */
  lemma CodeDigitsIsShared(w: ConfigWorld, b: ConfigBuilder, other: ConfigRef, d: Int32)
    requires w.Holds(b.config) && w.Holds(other) && other != b.config
    requires 0 <= w.codeDigits <= 9 && 0 <= d <= 9 && d != w.codeDigits
    requires w.configs[other].keyModulus == Pow(10, w.codeDigits)
    ensures var w' := SetCodeDigits(w, b, d);
      && GetCodeDigits(w', other) == d
      && w'.configs[other].keyModulus == w.configs[other].keyModulus
      && w'.configs[other].keyModulus != Pow(10, GetCodeDigits(w', other))
  {
    PowInjective(w.codeDigits, d);
  }

  lemma PowInjective(d: nat, e: nat)
    requires d != e
    ensures Pow(10, d) != Pow(10, e)
  {
    if d < e {
      PowStrictlyGrows(d, e);
    } else {
      PowStrictlyGrows(e, d);
    }
  }

  lemma {:induction false} PowStrictlyGrows(d: nat, e: nat)
    requires d < e
    ensures Pow(10, d) < Pow(10, e)
  {
    if d < e - 1 {
      PowStrictlyGrows(d, e - 1);
    }
  }

  /** `build()` returns the object the setters mutate, so a configuration built earlier sees
      every later setter call on the same builder. */
  lemma BuildAliasesOneInstance(w: ConfigWorld, b: ConfigBuilder, n: Int32)
    requires w.Holds(b.config)
    ensures var first := Build(b);
      var w' := SetWindowSize(w, b, n);
      && first == Build(b)
      && w'.configs[first].windowSize == n
  {
  }
}

=== FILE: credentials.dfy ===
/** Credential creation and the per-user operations of `Authenticator`, which combine the
    engine, the scratch codes, the key builder and the repository slot. */
module Credentials {
  import opened Arith
  import opened Wrappers
  import opened Config
  import opened Key
  import opened Otp
  import opened Scratch
  import opened Repository

  /** Bytes drawn for one credential: the key and one slice per scratch code. */
  const CREDENTIAL_BUFFER_BYTES: nat := SECRET_BITS / 8 + SCRATCH_CODES * BYTES_PER_SCRATCH_CODE

  /** `calculateValidationCode(secretKey)`: the code at counter 0, whose message is eight
      zero bytes. */
  function CalculateValidationCode(cfg: ConfigFields, p: Primitives, secretKey: seq<bv8>): (r: Result<Int32>)
    requires WellFormedMac(p)
    ensures |secretKey| == 0 ==> r == Failure(IllegalArgument)
    ensures var digest := p.mac(cfg.hmacHashFunction, secretKey, [0, 0, 0, 0, 0, 0, 0, 0]);
      |secretKey| > 0 && digest.Some? && cfg.keyModulus > 0 ==>
        r == Success(RfcTruncation(digest.value) % cfg.keyModulus)
  {
    assert CounterBytes(0) == ToBigEndian(0, 8) == [0, 0, 0, 0, 0, 0, 0, 0];
    CalculateCode(cfg, p, secretKey, 0)
  }

  /** The state a successful `createCredentials()` leaves behind. */
  datatype Created = Created(world: ConfigWorld, statics: KeyStatics, key: AuthenticatorKey, rest: seq<bv8>)

  /** `createCredentials()` on an authenticator whose configuration is `cfgRef`. */
  function CreateCredentials(w: ConfigWorld, s: KeyStatics, cfgRef: ConfigRef, p: Primitives,
                             stream: seq<bv8>): (r: Result<Created>)
    requires w.Holds(cfgRef) && WellFormedMac(p)
    ensures r.Failure? ==> r.error in {EntropyExhausted, IllegalArgument, OperationFailed, DivideByZero}
    ensures |stream| < CREDENTIAL_BUFFER_BYTES ==> r == Failure(EntropyExhausted)
    ensures |stream| >= CREDENTIAL_BUFFER_BYTES && w.configs[cfgRef].keyRepresentation == OtherRepresentation ==>
      r == Failure(IllegalArgument)
    ensures var cfg := w.configs[cfgRef];
      (&& ReliableMac(p) && cfg.keyModulus > 0 && cfg.keyRepresentation != OtherRepresentation
       && |stream| >= CREDENTIAL_BUFFER_BYTES
       && forall k :: 0 <= k < SCRATCH_CODES ==> SliceIsValid(stream[..CREDENTIAL_BUFFER_BYTES], k))
      ==> r.Success? && r.value.rest == stream[CREDENTIAL_BUFFER_BYTES..]
    ensures r.Success? ==>
      var cfg := w.configs[cfgRef];
      var k := r.value.key;
      && |stream| >= CREDENTIAL_BUFFER_BYTES
      && var secret := stream[..10];
      && r.value.world.Holds(cfgRef) && r.value.world.configs[cfgRef] == cfg
      && GetConfig(r.value.statics, k) == Some(cfgRef)
      && GetKey(r.value.statics, k).Some?
      && CalculateSecretKey(cfg, p, secret) == Success(GetKey(r.value.statics, k).value)
      && CalculateCode(cfg, p, secret, 0) == Success(GetVerificationCode(r.value.statics, k))
      && GetScratchCodes(r.value.statics, k).Some?
      && ScratchCodesOf(stream[..CREDENTIAL_BUFFER_BYTES], stream[CREDENTIAL_BUFFER_BYTES..],
                        Codes(GetScratchCodes(r.value.statics, k).value, r.value.rest))
  {
    var cfg := w.configs[cfgRef];
    var d :- NextBytes(stream, CREDENTIAL_BUFFER_BYTES);
    var buffer := d.bytes;
    var secretKey := buffer[..SECRET_BITS / 8];
    assert secretKey == stream[..10];
    var generatedKey :- CalculateSecretKey(cfg, p, secretKey);
    CodeComputable(cfg, p, secretKey, 0);
    var validationCode :- CalculateValidationCode(cfg, p, secretKey);
    var codes :- CalculateScratchCodes(buffer, d.rest);
    var (w1, b) := NewKeyBuilder(w, Some(generatedKey));
    var b1 := SetScratchCodes(SetVerificationCode(SetConfig(b, Some(cfgRef)), validationCode), Some(codes.codes));
    var (s1, key) := BuildKey(s, b1);
    Success(Created(w1, s1, key.value, codes.rest))
  }

  /** The verification code of fresh credentials is accepted at time 0 with a window of one
      step: it is the code of time step 0 for the key the rendered secret decodes to. */
  lemma CreatedCodeValidatesAtEpoch(w: ConfigWorld, s: KeyStatics, cfgRef: ConfigRef, p: Primitives,
                                    stream: seq<bv8>)
    requires w.Holds(cfgRef) && ReliableMac(p) && LawfulCodec(p)
    requires w.configs[cfgRef].keyModulus > 0 && w.configs[cfgRef].timeStepSizeInMillis != 0
    requires CreateCredentials(w, s, cfgRef, p, stream).Success?
    ensures var c := CreateCredentials(w, s, cfgRef, p, stream).value;
      CheckCode(w.configs[cfgRef], p, GetKey(c.statics, c.key).value,
                GetVerificationCode(c.statics, c.key), 0, 1) == Success(true)
  {
    var cfg := w.configs[cfgRef];
    var c := CreateCredentials(w, s, cfgRef, p, stream).value;
    var secret := stream[..10];
    var text := GetKey(c.statics, c.key).value;
    var code := GetVerificationCode(c.statics, c.key);
    assert |secret| == 10 && CalculateSecretKey(cfg, p, secret) == Success(text)
           && CalculateCode(cfg, p, secret, 0) == Success(code);
    RenderedKeyValidatesAtEpoch(cfg, p, secret, text, code);
  }

  /** A key's code at time step 0 is accepted at time 0 with a window of one step, given
      the key in its rendered form. */
  lemma RenderedKeyValidatesAtEpoch(cfg: ConfigFields, p: Primitives, secret: seq<bv8>, text: string, code: Int32)
    requires ReliableMac(p) && LawfulCodec(p) && cfg.keyModulus > 0 && cfg.timeStepSizeInMillis != 0
    requires |secret| > 0
    requires CalculateSecretKey(cfg, p, secret) == Success(text)
    requires CalculateCode(cfg, p, secret, 0) == Success(code)
    ensures CheckCode(cfg, p, text, code, 0, 1) == Success(true)
  {
    SecretRoundTrip(cfg, p, secret);
    assert DecodeSecret(cfg, p, text) == Success(secret);
    assert TimeWindow(cfg, 0) == Success(0);
    CheckCodeAcceptsExactlyTheWindow(cfg, p, text, code, 0, 1);
    WindowCoversExactlyWindowSteps(1);
    assert MatchesAt(cfg, p, secret, code, 0, 0);
  }

  /** What `createCredentials(userName)` hands to `saveUserCredentials`. */
  datatype Saved<R> = Saved(repository: R, userName: string, secretKey: Option<string>,
                            validationCode: Int32, scratchCodes: Option<seq<Int32>>)

  /** What `createCredentials(userName)` leaves behind: the credentials it created before
      looking for a repository (`None` when it created none), the repository slot, and the
      save request or the exception the call ends with. */
  datatype CreatedFor<R> = CreatedFor(created: Option<Created>, slot: RepoSlot<R>, saved: Result<Saved<R>>)

  /** `createCredentials(userName)`: a null name is an argument error; otherwise credentials
      are created, then the repository is looked up and given exactly the new key's values.
      Without a repository the call fails, but the credentials stay created and the slot
      stays searched. */
  function CreateCredentialsFor<R(==)>(w: ConfigWorld, s: KeyStatics, cfgRef: ConfigRef, p: Primitives,
                                       stream: seq<bv8>, slot: RepoSlot<R>, discovered: seq<R>,
                                       userName: Option<string>): (r: CreatedFor<R>)
    requires w.Holds(cfgRef) && WellFormedMac(p)
    ensures userName.None? ==> r == CreatedFor(None, slot, Failure(IllegalArgument))
    ensures userName.Some? && CreateCredentials(w, s, cfgRef, p, stream).Failure? ==>
      r == CreatedFor(None, slot, Failure(CreateCredentials(w, s, cfgRef, p, stream).error))
    ensures userName.Some? && CreateCredentials(w, s, cfgRef, p, stream).Success? ==>
      var c := CreateCredentials(w, s, cfgRef, p, stream).value;
      var l := GetCredentialRepository(slot, discovered);
      && r.created == Some(c)
      && r.slot == l.slot && r.slot.searched
      && (r.saved.Failure? <==> l.repository.None?)
      && (r.saved.Failure? ==> r.saved.error == UnsupportedOperation)
      && (r.saved.Success? ==>
            r.saved.value == Saved(l.repository.value, userName.value, GetKey(c.statics, c.key),
                                   GetVerificationCode(c.statics, c.key), GetScratchCodes(c.statics, c.key)))
  {
    match userName
    case None => CreatedFor(None, slot, Failure(IllegalArgument))
    case Some(name) =>
      match CreateCredentials(w, s, cfgRef, p, stream)
      case Failure(e) => CreatedFor(None, slot, Failure(e))
      case Success(c) =>
        var (slot1, found) := GetValidCredentialRepository(slot, discovered);
        match found
        case Failure(e) => CreatedFor(Some(c), slot1, Failure(e))
        case Success(repository) =>
          CreatedFor(Some(c), slot1, Success(Saved(repository, name, GetKey(c.statics, c.key),
                                                   GetVerificationCode(c.statics, c.key),
                                                   GetScratchCodes(c.statics, c.key))))
  }

  /** `authorizeUser(userName, code, time)`: the repository's secret for the user, then
      `authorize`. `secretOf` stands for the repository's `getSecretKey`; the name, null
      included, is passed to it unchecked. */
  function AuthorizeUser<R(==)>(cfg: ConfigFields, p: Primitives, slot: RepoSlot<R>, discovered: seq<R>,
                                secretOf: (R, Option<string>) -> Option<string>, userName: Option<string>,
                                verificationCode: Int32, time: Int64): (r: (RepoSlot<R>, Result<bool>))
    requires WellFormedMac(p)
    ensures var l := GetCredentialRepository(slot, discovered);
      && r.0 == l.slot
      && (l.repository.None? ==> r.1 == Failure(UnsupportedOperation))
      && (l.repository.Some? ==>
            r.1 == Authorize(cfg, p, secretOf(l.repository.value, userName), verificationCode, time))
  {
    var (slot1, found) := GetValidCredentialRepository(slot, discovered);
    match found
    case Failure(e) => (slot1, Failure(e))
    case Success(repository) =>
      (slot1, Authorize(cfg, p, secretOf(repository, userName), verificationCode, time))
  }

  /** `getTotpPasswordOfUser(userName, time)`: the current password for the repository's
      secret of the user. */
  function GetTotpPasswordOfUser<R(==)>(cfg: ConfigFields, p: Primitives, slot: RepoSlot<R>, discovered: seq<R>,
                                        secretOf: (R, Option<string>) -> Option<string>, userName: Option<string>,
                                        time: Int64): (r: (RepoSlot<R>, Result<Int32>))
    requires WellFormedMac(p)
    ensures var l := GetCredentialRepository(slot, discovered);
      && r.0 == l.slot
      && (l.repository.None? ==> r.1 == Failure(UnsupportedOperation))
      && (l.repository.Some? ==>
            r.1 == GetTotpPassword(cfg, p, secretOf(l.repository.value, userName), time))
  {
    var (slot1, found) := GetValidCredentialRepository(slot, discovered);
    match found
    case Failure(e) => (slot1, Failure(e))
    case Success(repository) =>
      (slot1, GetTotpPassword(cfg, p, secretOf(repository, userName), time))
  }
}

=== FILE: key.dfy ===
/** `AuthenticatorKey` and its `Builder`. All four fields of the key class are static, so a
    key object carries no state of its own: every getter reads one global record, and
    constructing any key overwrites what every existing key reports. */
module Key {
  import opened Arith
  import opened Wrappers
  import opened Config

  /** The four static fields of the key class. `None` is a null reference. */
  datatype KeyStatics = KeyStatics(
    config: Option<ConfigRef>,
    key: Option<string>,
    verificationCode: Int32,
    scratchCodes: Option<seq<Int32>>)

  /** The static fields before any key has been built. */
  function InitialStatics(): KeyStatics
  {
    KeyStatics(None, None, 0, None)
  }

  /** A key object. It has no instance fields, so all keys are interchangeable. */
  datatype AuthenticatorKey = AuthenticatorKey

  /** `getConfig()` reads the static field, whichever key object it is called on. */
  function GetConfig(s: KeyStatics, k: AuthenticatorKey): Option<ConfigRef>
  {
    s.config
  }

  /** `getKey()` reads the static field, whichever key object it is called on. */
  function GetKey(s: KeyStatics, k: AuthenticatorKey): Option<string>
  {
    s.key
  }

  /** `getVerificationCode()` reads the static field, whichever key object it is called on. */
  function GetVerificationCode(s: KeyStatics, k: AuthenticatorKey): Int32
  {
    s.verificationCode
  }

  /** `getScratchCodes()` reads the static field, whichever key object it is called on. */
  function GetScratchCodes(s: KeyStatics, k: AuthenticatorKey): Option<seq<Int32>>
  {
    s.scratchCodes
  }

  /** A `Builder`'s instance fields. Lists are values here, so the copy the constructor
      takes is already implied by storing the sequence. */
  datatype KeyBuilder = KeyBuilder(
    config: Option<ConfigRef>,
    key: Option<string>,
    verificationCode: Int32,
    scratchCodes: Option<seq<Int32>>)

  /** `new Builder(key)`: the field initialisers allocate a default configuration and an
      empty list; the verification code starts at 0. */
  function NewKeyBuilder(w: ConfigWorld, key: Option<string>): (p: (ConfigWorld, KeyBuilder))
    ensures var (w', b) := p;
      && b.key == key
      && b.verificationCode == 0
      && b.scratchCodes == Some([])
      && b.config == Some(|w.configs|)
      && w' == NewConfig(w).world
  {
    var a := NewConfig(w);
    (a.world, KeyBuilder(Some(a.ref), key, 0, Some([])))
  }

  /** `setConfig(x)` stores any value, null included, and leaves the other fields alone. */
  function SetConfig(b: KeyBuilder, c: Option<ConfigRef>): (b': KeyBuilder)
    ensures b'.config == c
    ensures b'.key == b.key && b'.verificationCode == b.verificationCode && b'.scratchCodes == b.scratchCodes
  {
    b.(config := c)
  }

  /** `setKey(x)` stores any value, null included, and leaves the other fields alone. */
  function SetKey(b: KeyBuilder, k: Option<string>): (b': KeyBuilder)
    ensures b'.key == k
    ensures b'.config == b.config && b'.verificationCode == b.verificationCode && b'.scratchCodes == b.scratchCodes
  {
    b.(key := k)
  }

  /** `setVerificationCode(x)` stores any value and leaves the other fields alone. */
  function SetVerificationCode(b: KeyBuilder, v: Int32): (b': KeyBuilder)
    ensures b'.verificationCode == v
    ensures b'.config == b.config && b'.key == b.key && b'.scratchCodes == b.scratchCodes
  {
    b.(verificationCode := v)
  }

  /** `setScratchCodes(x)` stores any value, null included, and leaves the other fields alone. */
  function SetScratchCodes(b: KeyBuilder, l: Option<seq<Int32>>): (b': KeyBuilder)
    ensures b'.scratchCodes == l
    ensures b'.config == b.config && b'.key == b.key && b'.verificationCode == b.verificationCode
  {
    b.(scratchCodes := l)
  }

  /** `build()`, that is the private constructor. None of its null checks is active; it
      assigns config, key and code, then copies the list, which throws on a null list
      after the first three statics have already been overwritten. */
  function BuildKey(s: KeyStatics, b: KeyBuilder): (p: (KeyStatics, Result<AuthenticatorKey>))
    ensures var (s', r) := p;
      && (r.Success? <==> b.scratchCodes.Some?)
      && (r.Failure? ==> r.error == NullReference)
      && (forall k: AuthenticatorKey ::
            && GetConfig(s', k) == b.config
            && GetKey(s', k) == b.key
            && GetVerificationCode(s', k) == b.verificationCode
            && GetScratchCodes(s', k) == if r.Success? then b.scratchCodes else s.scratchCodes)
  {
    var s1 := KeyStatics(b.config, b.key, b.verificationCode, s.scratchCodes);
    match b.scratchCodes
    case None => (s1, Failure(NullReference))
    case Some(l) => (s1.(scratchCodes := Some(l)), Success(AuthenticatorKey))
  }

  /** The fluent chain `new Builder(key).setConfig(c).setVerificationCode(v)
      .setScratchCodes(l).build()` yields a key whose getters report exactly the values
      given, null ones included; without the setters, the builder's defaults. */
  lemma BuilderChainReadsBack(w: ConfigWorld, s: KeyStatics, key: Option<string>,
                                                 c: Option<ConfigRef>, v: Int32, l: seq<Int32>)
    ensures var (_, b) := NewKeyBuilder(w, key);
      var (s', r) := BuildKey(s, SetScratchCodes(SetVerificationCode(SetConfig(b, c), v), Some(l)));
      && r == Success(AuthenticatorKey)
      && GetConfig(s', AuthenticatorKey) == c
      && GetKey(s', AuthenticatorKey) == key
      && GetVerificationCode(s', AuthenticatorKey) == v
      && GetScratchCodes(s', AuthenticatorKey) == Some(l)
    ensures var (_, b) := NewKeyBuilder(w, key);
      var (s', r) := BuildKey(s, b);
      && r == Success(AuthenticatorKey)
      && GetConfig(s', AuthenticatorKey) == Some(|w.configs|)
      && GetVerificationCode(s', AuthenticatorKey) == 0
      && GetScratchCodes(s', AuthenticatorKey) == Some([])
  {
  }
}

=== FILE: otp.dfy ===
/** The HOTP/TOTP engine of `Authenticator`: counter encoding, dynamic truncation, the time
    step, the skew-tolerant window check and the bound-checking `authorize` front door. */
module Otp {
  import opened Arith
  import opened Bytes
  import opened Wrappers
  import opened Config

  /** The foreign primitives the engine calls: the JCE HMAC (`None` when the algorithm or
      key is refused) and the Base32 / Base64 codec classes. */
  datatype Primitives = Primitives(
    mac: (HmacHashFunction, seq<bv8>, seq<bv8>) -> Option<seq<bv8>>,
    base32Encode: seq<bv8> -> string,
    base32Decode: string -> seq<bv8>,
    base64Encode: seq<bv8> -> string,
    base64Decode: string -> seq<bv8>)

  /** Every digest the HMAC returns has its algorithm's length. */
  ghost predicate WellFormedMac(p: Primitives)
  {
    forall h, key, data :: p.mac(h, key, data).Some? ==> |p.mac(h, key, data).value| == DigestLength(h)
  }

  /** The HMAC never fails on a key `SecretKeySpec` accepts, that is a non-empty one. */
  ghost predicate ReliableMac(p: Primitives)
  {
    && WellFormedMac(p)
    && forall h, key, data :: |key| > 0 ==> p.mac(h, key, data).Some?
  }

  predicate NoLowerCase(s: string)
  {
    forall i :: 0 <= i < |s| ==> !('a' <= s[i] <= 'z')
  }

  /** Both codecs decode what they encode, and the Base32 encoder writes upper case. */
  ghost predicate LawfulCodec(p: Primitives)
  {
    && (forall b :: p.base32Decode(p.base32Encode(b)) == b && NoLowerCase(p.base32Encode(b)))
    && (forall b :: p.base64Decode(p.base64Encode(b)) == b)
  }

  // ---------------------------------------------------------------- counter encoding

  /** The `data` array of `calculateCode`: eight rounds of "store the low byte, `>>>= 8`"
      from the last index down. The unsigned shift walks the two's-complement bit pattern,
      so the bytes are those of `tm` modulo 2^64, most significant first. */
  function CounterBytes(tm: Int64): (data: seq<bv8>)
    ensures |data| == 8
    ensures BigEndian(data) == tm % TWO_64
  {
    var v := tm % TWO_64;
    assert BigEndian(ToBigEndian(v, 8)) == v by {
      BigEndianOfToBigEndian(v, 8);
      Pow256Eight();
      LemmaModUnique(v, TWO_64, 0, v);
    }
    ToBigEndian(v, 8)
  }

  lemma Pow256Eight()
    ensures Pow(256, 8) == TWO_64
  {
    assert Pow(256, 2) == 0x1_0000;
    assert Pow(256, 4) == 256 * (256 * Pow(256, 2));
    assert Pow(256, 6) == 256 * (256 * Pow(256, 4));
    assert Pow(256, 8) == 256 * (256 * Pow(256, 6));
  }

  /** Distinct counters are fed to the HMAC as distinct messages. */
  lemma CounterBytesInjective(tm1: Int64, tm2: Int64)
    requires CounterBytes(tm1) == CounterBytes(tm2)
    ensures tm1 == tm2
  {
    assert tm1 % TWO_64 == tm2 % TWO_64 by {
      assert BigEndian(CounterBytes(tm1)) == BigEndian(CounterBytes(tm2));
    }
    Int64Residue(tm1);
    Int64Residue(tm2);
  }

  /** A `long`'s residue modulo 2^64 is its unsigned reading. */
  lemma Int64Residue(tm: Int64)
    ensures tm % TWO_64 == if tm >= 0 then tm else tm + TWO_64
  {
    if tm >= 0 {
      LemmaModUnique(tm, TWO_64, 0, tm);
    } else {
      LemmaModUnique(tm, TWO_64, -1, tm + TWO_64);
    }
  }

  // ---------------------------------------------------------------- dynamic truncation

  /** `hash[hash.length - 1] & 0xF`. */
  function TruncationOffset(hash: seq<bv8>): (o: nat)
    requires |hash| > 0
    ensures o <= 15
  {
    (hash[|hash| - 1] & 0x0F) as int
  }

  /** The loop of `calculateCode` shifting four bytes from the offset into a `long`, then
      `& 0x7FFFFFFF`, which on a value below 2^32 keeps its remainder modulo 2^31. */
  function DynamicTruncation(hash: seq<bv8>): (t: nat)
    requires |hash| >= 19
    ensures t < TWO_31
  {
    var o := TruncationOffset(hash);
    BigEndian(hash[o..o + 4]) % TWO_31
  }

  /** Dynamic truncation as section 5.3 of RFC 4226 writes it: the top bit of the byte at
      the offset is masked, then four bytes are combined most significant first. */
  function RfcTruncation(hash: seq<bv8>): nat
    requires |hash| >= 19
  {
    var o := TruncationOffset(hash);
    ((hash[o] & 0x7F) as int) * 0x100_0000 + (hash[o + 1] as int) * 0x1_0000
      + (hash[o + 2] as int) * 0x100 + hash[o + 3] as int
  }

  lemma BigEndianOfFour(w: seq<bv8>)
    requires |w| == 4
    ensures BigEndian(w) == ((w[0] as int * 256 + w[1] as int) * 256 + w[2] as int) * 256 + w[3] as int
  {
    assert w[..3][..2] == w[..2];
    assert w[..2][..1] == w[..1];
    assert w[..1][..0] == [];
    assert BigEndian(w[..1]) == w[0] as int;
    assert BigEndian(w[..2]) == BigEndian(w[..1]) * 256 + w[1] as int;
    assert BigEndian(w[..3]) == BigEndian(w[..2]) * 256 + w[2] as int;
    assert BigEndian(w) == BigEndian(w[..3]) * 256 + w[3] as int;
  }

  lemma ClearTopBit(b0: int, low: int)
    requires 0 <= b0 < 256 && 0 <= low < 0x100_0000
    ensures (b0 * 0x100_0000 + low) % 0x8000_0000 == (b0 % 128) * 0x100_0000 + low
  {
    if b0 >= 128 {
      LemmaModUnique(b0 * 0x100_0000 + low, 0x8000_0000, 1, (b0 - 128) * 0x100_0000 + low);
    } else {
      LemmaModUnique(b0 * 0x100_0000 + low, 0x8000_0000, 0, b0 * 0x100_0000 + low);
    }
  }

  /** The value of four bytes with bit 31 cleared, as the RFC computes it. */
  lemma MaskedWord(w: seq<bv8>)
    requires |w| == 4
    ensures BigEndian(w) % TWO_31
         == (w[0] as int % 128) * 0x100_0000 + (w[1] as int) * 0x1_0000 + (w[2] as int) * 0x100 + w[3] as int
  {
    var b0 := w[0] as int;
    var low := (w[1] as int) * 0x1_0000 + (w[2] as int) * 0x100 + w[3] as int;
    assert BigEndian(w) == b0 * 0x100_0000 + low by {
      BigEndianOfFour(w);
    }
    ClearTopBit(b0, low);
  }

  /** The source's truncation agrees with the RFC's on every digest long enough to index. */
  lemma TruncationMatchesRfc(hash: seq<bv8>)
    requires |hash| >= 19
    ensures DynamicTruncation(hash) == RfcTruncation(hash)
  {
    var o := TruncationOffset(hash);
    var w := hash[o..o + 4];
    MaskedWord(w);
    assert w[0] == hash[o] && w[1] == hash[o + 1] && w[2] == hash[o + 2] && w[3] == hash[o + 3];
    ByteLowBits(hash[o]);
  }

  // ---------------------------------------------------------------- calculateCode

  /** `calculateCode(key, tm)`: HMAC of the counter bytes, dynamic truncation, reduction
      modulo `keyModulus`. `SecretKeySpec` rejects an empty key before the `try`, so that
      argument error escapes; a refused HMAC surfaces as the authenticator's generic error;
      a zero modulus makes `%` throw. */
  function CalculateCode(cfg: ConfigFields, p: Primitives, key: seq<bv8>, tm: Int64): (r: Result<Int32>)
    requires WellFormedMac(p)
    ensures |key| == 0 ==> r == Failure(IllegalArgument)
    ensures var digest := p.mac(cfg.hmacHashFunction, key, CounterBytes(tm));
      |key| > 0 ==>
      && (digest.None? ==> r == Failure(OperationFailed))
      && (digest.Some? && cfg.keyModulus == 0 ==> r == Failure(DivideByZero))
      && (digest.Some? && cfg.keyModulus > 0 ==>
            && r.Success?
            && 0 <= r.value < cfg.keyModulus
            && r.value == RfcTruncation(digest.value) % cfg.keyModulus)
  {
    if |key| == 0 then Failure(IllegalArgument)
    else match p.mac(cfg.hmacHashFunction, key, CounterBytes(tm))
    case None => Failure(OperationFailed)
    case Some(hash) =>
      TruncationMatchesRfc(hash);
      var truncated := DynamicTruncation(hash);
      if cfg.keyModulus == 0 then Failure(DivideByZero)
      else Success(truncated % cfg.keyModulus)
  }

  /** The code depends on the configuration only through its hash function and modulus. */
  lemma CodeDependsOnlyOnHashAndModulus(c1: ConfigFields, c2: ConfigFields, p: Primitives,
                                        key: seq<bv8>, tm: Int64)
    requires WellFormedMac(p)
    requires c1.hmacHashFunction == c2.hmacHashFunction && c1.keyModulus == c2.keyModulus
    ensures CalculateCode(c1, p, key, tm) == CalculateCode(c2, p, key, tm)
  {
  }

  /** The secret of the test vectors in appendix D of RFC 4226: the ASCII bytes of
      "12345678901234567890". */
  const RFC_SECRET: seq<bv8> := [
    0x31, 0x32, 0x33, 0x34, 0x35, 0x36, 0x37, 0x38, 0x39, 0x30,
    0x31, 0x32, 0x33, 0x34, 0x35, 0x36, 0x37, 0x38, 0x39, 0x30]

  /** HMAC-SHA-1 of that secret over counters 0, 1 and 2, from the same appendix. */
  const RFC_DIGEST_0: seq<bv8> := [
    0xcc, 0x93, 0xcf, 0x18, 0x50, 0x8d, 0x94, 0x93, 0x4c, 0x64,
    0xb6, 0x5d, 0x8b, 0xa7, 0x66, 0x7f, 0xb7, 0xcd, 0xe4, 0xb0]
  const RFC_DIGEST_1: seq<bv8> := [
    0x75, 0xa4, 0x8a, 0x19, 0xd4, 0xcb, 0xe1, 0x00, 0x64, 0x4e,
    0x8a, 0xc1, 0x39, 0x7e, 0xea, 0x74, 0x7a, 0x2d, 0x33, 0xab]
  const RFC_DIGEST_2: seq<bv8> := [
    0x0b, 0xac, 0xb7, 0xfa, 0x08, 0x2f, 0xef, 0x30, 0x78, 0x22,
    0x11, 0x93, 0x8b, 0xc1, 0xc5, 0xe7, 0x04, 0x16, 0xff, 0x44]

  lemma RfcTruncationOf(hash: seq<bv8>, o: nat, b0: int, b1: int, b2: int, b3: int)
    requires |hash| >= 19 && TruncationOffset(hash) == o
    requires (hash[o] & 0x7F) as int == b0
    requires hash[o + 1] as int == b1 && hash[o + 2] as int == b2 && hash[o + 3] as int == b3
    ensures RfcTruncation(hash) == b0 * 0x100_0000 + b1 * 0x1_0000 + b2 * 0x100 + b3
  {
  }

  lemma RfcTruncation0()
    ensures RfcTruncation(RFC_DIGEST_0) == 1284755224
  {
    var d := RFC_DIGEST_0;
    assert d[19] == 0xb0;
    assert TruncationOffset(d) == 0;
    assert d[0] == 0xcc;
    assert (d[0] & 0x7F) as int == 0x4c;
    assert d[1] as int == 0x93;
    assert d[2] as int == 0xcf;
    assert d[3] as int == 0x18;
    RfcTruncationOf(d, 0, 0x4c, 0x93, 0xcf, 0x18);
  }

  lemma RfcTruncation1()
    ensures RfcTruncation(RFC_DIGEST_1) == 1094287082
  {
    var d := RFC_DIGEST_1;
    assert d[19] == 0xab;
    assert TruncationOffset(d) == 11;
    assert d[11] == 0xc1;
    assert (d[11] & 0x7F) as int == 0x41;
    assert d[12] as int == 0x39;
    assert d[13] as int == 0x7e;
    assert d[14] as int == 0xea;
    RfcTruncationOf(d, 11, 0x41, 0x39, 0x7e, 0xea);
  }

  lemma RfcTruncation2()
    ensures RfcTruncation(RFC_DIGEST_2) == 137359152
  {
    var d := RFC_DIGEST_2;
    assert d[19] == 0x44;
    assert TruncationOffset(d) == 4;
    assert d[4] == 0x08;
    assert (d[4] & 0x7F) as int == 0x08;
    assert d[5] as int == 0x2f;
    assert d[6] as int == 0xef;
    assert d[7] as int == 0x30;
    RfcTruncationOf(d, 4, 0x08, 0x2f, 0xef, 0x30);
  }

  /** With an HMAC that reproduces the RFC's digests, six-digit codes come out as the
      published HOTP values 755224, 287082 and 359152. */
  lemma RfcVectors(cfg: ConfigFields, p: Primitives)
    requires WellFormedMac(p)
    requires cfg.hmacHashFunction == HmacSHA1 && cfg.keyModulus == 1_000_000
    requires p.mac(HmacSHA1, RFC_SECRET, CounterBytes(0)) == Some(RFC_DIGEST_0)
    requires p.mac(HmacSHA1, RFC_SECRET, CounterBytes(1)) == Some(RFC_DIGEST_1)
    requires p.mac(HmacSHA1, RFC_SECRET, CounterBytes(2)) == Some(RFC_DIGEST_2)
    ensures CalculateCode(cfg, p, RFC_SECRET, 0) == Success(755224)
    ensures CalculateCode(cfg, p, RFC_SECRET, 1) == Success(287082)
    ensures CalculateCode(cfg, p, RFC_SECRET, 2) == Success(359152)
  {
    RfcTruncation0();
    RfcTruncation1();
    RfcTruncation2();
  }

  // ---------------------------------------------------------------- time steps

  /** `getTimeWindowFromTime(time)`: `time / timeStepSizeInMillis` on `long`s, truncating
      toward zero; a zero step makes `/` throw. */
  function TimeWindow(cfg: ConfigFields, time: Int64): (r: Result<Int64>)
    ensures r.Failure? <==> cfg.timeStepSizeInMillis == 0
    ensures r.Failure? ==> r.error == DivideByZero
    ensures r.Success? && time >= 0 && cfg.timeStepSizeInMillis > 0 ==>
      r.value * cfg.timeStepSizeInMillis <= time < (r.value + 1) * cfg.timeStepSizeInMillis
    ensures r.Success? && time < 0 && cfg.timeStepSizeInMillis > 0 ==>
      (r.value - 1) * cfg.timeStepSizeInMillis < time <= r.value * cfg.timeStepSizeInMillis
    ensures r.Success? && cfg.timeStepSizeInMillis < 0 && !(time == -TWO_63 && cfg.timeStepSizeInMillis == -1) ==>
      var rem: int := time - r.value * cfg.timeStepSizeInMillis;
      (time >= 0 ==> 0 <= rem < Abs(cfg.timeStepSizeInMillis)) && (time < 0 ==> -Abs(cfg.timeStepSizeInMillis) < rem <= 0)
    ensures time == -TWO_63 && cfg.timeStepSizeInMillis == -1 ==> r == Success(-TWO_63)
  {
    var step := cfg.timeStepSizeInMillis;
    if step == 0 then Failure(DivideByZero)
    else
      var q := TDiv(time, step);
      QuotientFitsUnlessOverflow(time, step, q);
      StepBounds(time, step, q);
      Success(Wrap64(q))
  }

  /** A `long` quotient fits in a `long`, except `Long.MIN_VALUE / -1`, which wraps back to
      `Long.MIN_VALUE`. */
  lemma QuotientFitsUnlessOverflow(time: Int64, step: Int64, q: int)
    requires step != 0 && q == TDiv(time, step)
    ensures !(time == -TWO_63 && step == -1) ==> Wrap64(q) == q
    ensures time == -TWO_63 && step == -1 ==> Wrap64(q) == -TWO_63
  {
    if time == -TWO_63 && step == -1 {
      assert q == TWO_63;
      LemmaModUnique(q + TWO_63, TWO_64, 1, 0);
    } else if step == 1 || step == -1 {
      assert Abs(q) <= Abs(time);
      assert -TWO_63 <= q < TWO_63;
    } else {
      assert Abs(q) * 2 <= Abs(time) by {
        TDivHalves(time, step, q);
      }
    }
  }

  lemma TDivHalves(time: int, step: int, q: int)
    requires Abs(step) >= 2 && q == TDiv(time, step)
    ensures Abs(q) * 2 <= Abs(time)
  {
    var k := Abs(q);
    var m := q * step;
    MulMagnitude(q, step);
    MulAtLeastFactor(k, Abs(step) - 1);
    assert k * Abs(step) == k * (Abs(step) - 1) + k;
    if k >= 1 {
      MulAtLeastFactor(Abs(step), k);
    }
  }

  lemma MulMagnitude(a: int, b: int)
    ensures Abs(a * b) == Abs(a) * Abs(b)
  {
    if a >= 0 && b >= 0 {
    } else if a >= 0 {
      assert a * b == -(a * -b);
    } else if b >= 0 {
      assert a * b == -(-a * b);
    } else {
      assert a * b == -a * -b;
    }
  }

  lemma StepBounds(time: Int64, step: Int64, q: int)
    requires step != 0 && q == TDiv(time, step)
    ensures time >= 0 && step > 0 ==> q * step <= time < (q + 1) * step
    ensures time < 0 && step > 0 ==> (q - 1) * step < time <= q * step
    ensures step < 0 ==> var rem: int := time - q * step;
      (time >= 0 ==> 0 <= rem < Abs(step)) && (time < 0 ==> -Abs(step) < rem <= 0)
  {
    assert (q + 1) * step == q * step + step;
    assert (q - 1) * step == q * step - step;
  }

  // ---------------------------------------------------------------- window check

  /** First offset of `checkCode`'s loop, `-((window - 1) / 2)` on `int`s: `window - 1`
      wraps for `int.MinValue`, `/` truncates toward zero. */
  function WindowStart(window: Int32): (start: int)
    ensures window > -TWO_31 && window >= 1 ==> 0 <= (window - 1) + 2 * start <= 1
    ensures window > -TWO_31 && window < 1 ==> -1 <= (window - 1) + 2 * start <= 0
    ensures window == -TWO_31 ==> start == -0x3FFF_FFFF
  {
    -TDiv(Wrap32(window - 1), 2)
  }

  /** Last offset of `checkCode`'s loop, `window / 2`. */
  function WindowEnd(window: Int32): (end: int)
    ensures window >= 0 ==> 0 <= window - 2 * end <= 1
    ensures window < 0 ==> -1 <= window - 2 * end <= 0
  {
    TDiv(window, 2)
  }

  /** A positive window examines exactly `window` offsets; a zero window still examines
      offset 0, because `-1 / 2` truncates to 0; a negative window examines none. */
  lemma WindowCoversExactlyWindowSteps(window: Int32)
    ensures window >= 1 ==> WindowEnd(window) - WindowStart(window) + 1 == window
    ensures window == 0 ==> WindowStart(window) == 0 == WindowEnd(window)
    ensures window < 0 ==> WindowEnd(window) < WindowStart(window)
    ensures window == 3 ==> WindowStart(window) == -1 && WindowEnd(window) == 1
  {
    if window >= 1 {
      if window % 2 == 0 {
        assert WindowEnd(window) == window / 2;
        assert WindowStart(window) == -((window - 2) / 2);
      } else {
        assert WindowEnd(window) == (window - 1) / 2;
        assert WindowStart(window) == -((window - 1) / 2);
      }
    } else if window < 0 && window > -TWO_31 {
      assert Wrap32(window - 1) == window - 1;
    }
  }

  /** The code computed at time step `tw + i` equals `code`. */
  predicate MatchesAt(cfg: ConfigFields, p: Primitives, key: seq<bv8>, code: int, tw: Int64, i: int)
    requires WellFormedMac(p)
  {
    var c := CalculateCode(cfg, p, key, Wrap64(tw + i));
    c.Success? && c.value == code
  }

  /** The loop of `checkCode` from offset `i` to `hi`: the first error or match ends it. */
  function ScanWindow(cfg: ConfigFields, p: Primitives, key: seq<bv8>, code: int, tw: Int64,
                      i: int, hi: int): (r: Result<bool>)
    requires WellFormedMac(p)
    ensures r == Success(true) ==> exists j :: i <= j <= hi && MatchesAt(cfg, p, key, code, tw, j)
    ensures r == Success(false) ==> forall j :: i <= j <= hi ==> !MatchesAt(cfg, p, key, code, tw, j)
    decreases hi - i
  {
    if i > hi then Success(false)
    else
      var c := CalculateCode(cfg, p, key, Wrap64(tw + i));
      if c.Failure? then Failure(c.error)
      else if c.value == code then
        assert MatchesAt(cfg, p, key, code, tw, i);
        Success(true)
      else
        assert !MatchesAt(cfg, p, key, code, tw, i);
        ScanWindow(cfg, p, key, code, tw, i + 1, hi)
  }

  /** A working HMAC and a positive modulus give a code for every non-empty key. */
  lemma CodeComputable(cfg: ConfigFields, p: Primitives, key: seq<bv8>, tm: Int64)
    requires WellFormedMac(p)
    ensures ReliableMac(p) && cfg.keyModulus > 0 && |key| > 0 ==> CalculateCode(cfg, p, key, tm).Success?
  {
    if ReliableMac(p) && |key| > 0 {
      assert p.mac(cfg.hmacHashFunction, key, CounterBytes(tm)).Some?;
    }
  }

  /** With a working HMAC and a positive modulus, the scan succeeds exactly when some
      offset in `[i, hi]` reproduces the code; an empty key fails at the first offset. */
  lemma {:induction false} ScanWindowFindsMatch(cfg: ConfigFields, p: Primitives, key: seq<bv8>,
                                                code: int, tw: Int64, i: int, hi: int)
    requires ReliableMac(p) && cfg.keyModulus > 0
    ensures ScanWindow(cfg, p, key, code, tw, i, hi)
         == if |key| == 0 && i <= hi then Failure(IllegalArgument)
            else Success(exists j :: i <= j <= hi && MatchesAt(cfg, p, key, code, tw, j))
    decreases hi - i
  {
    if i <= hi && |key| > 0 {
      var c := CalculateCode(cfg, p, key, Wrap64(tw + i));
      CodeComputable(cfg, p, key, Wrap64(tw + i));
      if c.value == code {
        assert MatchesAt(cfg, p, key, code, tw, i);
      } else {
        ScanWindowFindsMatch(cfg, p, key, code, tw, i + 1, hi);
        SkipFirstOffset(cfg, p, key, code, tw, i, hi);
      }
    }
  }

  /** An offset that does not match can be dropped from the front of the range. */
  lemma SkipFirstOffset(cfg: ConfigFields, p: Primitives, key: seq<bv8>, code: int, tw: Int64, i: int, hi: int)
    requires WellFormedMac(p) && !MatchesAt(cfg, p, key, code, tw, i)
    ensures (exists j :: i <= j <= hi && MatchesAt(cfg, p, key, code, tw, j))
       <==> (exists j :: i + 1 <= j <= hi && MatchesAt(cfg, p, key, code, tw, j))
  {
    if exists j :: i <= j <= hi && MatchesAt(cfg, p, key, code, tw, j) {
      var j :| i <= j <= hi && MatchesAt(cfg, p, key, code, tw, j);
      assert j != i;
    }
  }

  // ---------------------------------------------------------------- secrets

  function UpperChar(c: char): char
  {
    if 'a' <= c <= 'z' then (c as int - 32) as char else c
  }

  function LowerChar(c: char): char
  {
    if 'A' <= c <= 'Z' then (c as int + 32) as char else c
  }

  /** `String.toUpperCase()` restricted to ASCII letters, as under a default locale that
      maps them to ASCII (not the Turkish or Azeri one, where 'i' becomes U+0130). */
  function ToUpper(s: string): string
  {
    seq(|s|, i requires 0 <= i < |s| => UpperChar(s[i]))
  }

  function ToLower(s: string): string
  {
    seq(|s|, i requires 0 <= i < |s| => LowerChar(s[i]))
  }

  /** `decodeSecret(secret)`: Base32 input is upper-cased before decoding, Base64 input is
      passed through, any other representation is an argument error. */
  function DecodeSecret(cfg: ConfigFields, p: Primitives, secret: string): (r: Result<seq<bv8>>)
    ensures r.Failure? <==> cfg.keyRepresentation == OtherRepresentation
    ensures r.Failure? ==> r.error == IllegalArgument
  {
    match cfg.keyRepresentation
    case BASE32 => Success(p.base32Decode(ToUpper(secret)))
    case BASE64 => Success(p.base64Decode(secret))
    case OtherRepresentation => Failure(IllegalArgument)
  }

  /** `calculateSecretKey(bytes)`: the key rendered in the configured representation. */
  function CalculateSecretKey(cfg: ConfigFields, p: Primitives, secretKey: seq<bv8>): (r: Result<string>)
    ensures r.Failure? <==> cfg.keyRepresentation == OtherRepresentation
    ensures r.Failure? ==> r.error == IllegalArgument
  {
    match cfg.keyRepresentation
    case BASE32 => Success(p.base32Encode(secretKey))
    case BASE64 => Success(p.base64Encode(secretKey))
    case OtherRepresentation => Failure(IllegalArgument)
  }

  lemma UpperIsIdentityWithoutLowerCase(s: string)
    requires NoLowerCase(s)
    ensures ToUpper(s) == s
  {
  }

  /** Decoding a secret the authenticator rendered gives back the key bytes, for both
      representations. */
  lemma SecretRoundTrip(cfg: ConfigFields, p: Primitives, secretKey: seq<bv8>)
    requires LawfulCodec(p) && cfg.keyRepresentation != OtherRepresentation
    ensures CalculateSecretKey(cfg, p, secretKey).Success?
    ensures DecodeSecret(cfg, p, CalculateSecretKey(cfg, p, secretKey).value) == Success(secretKey)
  {
    if cfg.keyRepresentation == BASE32 {
      UpperIsIdentityWithoutLowerCase(p.base32Encode(secretKey));
    }
  }

  /** Base32 secrets are case-insensitive: a lower-cased secret decodes to the same key,
      given the ASCII upper-casing of `ToUpper`. */
  lemma Base32IgnoresCase(cfg: ConfigFields, p: Primitives, secret: string)
    requires cfg.keyRepresentation == BASE32
    ensures DecodeSecret(cfg, p, ToLower(secret)) == DecodeSecret(cfg, p, secret)
  {
    assert ToUpper(ToLower(secret)) == ToUpper(secret);
  }

  // ---------------------------------------------------------------- public operations

  /** `checkCode(secret, code, timestamp, window)`: decode the secret, find the time step,
      then scan the offsets `-((window - 1) / 2) .. window / 2`. */
  function CheckCode(cfg: ConfigFields, p: Primitives, secret: string, code: int,
                     timestamp: Int64, window: Int32): (r: Result<bool>)
    requires WellFormedMac(p)
    ensures cfg.keyRepresentation == OtherRepresentation ==> r == Failure(IllegalArgument)
    ensures cfg.keyRepresentation != OtherRepresentation && cfg.timeStepSizeInMillis == 0 ==>
      r == Failure(DivideByZero)
    ensures r.Success? ==>
      && DecodeSecret(cfg, p, secret).Success?
      && TimeWindow(cfg, timestamp).Success?
      && var key := DecodeSecret(cfg, p, secret).value;
         var tw := TimeWindow(cfg, timestamp).value;
         (r.value <==> exists j :: WindowStart(window) <= j <= WindowEnd(window)
                                   && MatchesAt(cfg, p, key, code, tw, j))
  {
    var key :- DecodeSecret(cfg, p, secret);
    var tw :- TimeWindow(cfg, timestamp);
    ScanWindow(cfg, p, key, code, tw, WindowStart(window), WindowEnd(window))
  }

  /** Outside its error cases, `checkCode` accepts exactly when some offset of the window
      reproduces the code. */
  lemma CheckCodeAcceptsExactlyTheWindow(cfg: ConfigFields, p: Primitives, secret: string,
                                         code: int, timestamp: Int64, window: Int32)
    requires ReliableMac(p) && cfg.keyModulus > 0 && cfg.timeStepSizeInMillis != 0
    requires cfg.keyRepresentation != OtherRepresentation
    ensures var key := DecodeSecret(cfg, p, secret).value;
      var tw := TimeWindow(cfg, timestamp).value;
      CheckCode(cfg, p, secret, code, timestamp, window)
        == if |key| == 0 && WindowStart(window) <= WindowEnd(window) then Failure(IllegalArgument)
           else Success(exists j :: WindowStart(window) <= j <= WindowEnd(window)
                                    && MatchesAt(cfg, p, key, code, tw, j))
  {
    var key := DecodeSecret(cfg, p, secret).value;
    var tw := TimeWindow(cfg, timestamp).value;
    ScanWindowFindsMatch(cfg, p, key, code, tw, WindowStart(window), WindowEnd(window));
  }

  /** With the default window of 3 the steps one behind, current and one ahead are
      accepted, and a code valid only two steps ahead is rejected. */
  lemma WindowOfThree(cfg: ConfigFields, p: Primitives, secret: string, code: int, timestamp: Int64)
    requires ReliableMac(p) && cfg.keyModulus > 0 && cfg.timeStepSizeInMillis != 0
    requires cfg.keyRepresentation != OtherRepresentation
    ensures var key := DecodeSecret(cfg, p, secret).value;
      var tw := TimeWindow(cfg, timestamp).value;
      CheckCode(cfg, p, secret, code, timestamp, 3)
        == if |key| == 0 then Failure(IllegalArgument)
           else Success(MatchesAt(cfg, p, key, code, tw, -1) || MatchesAt(cfg, p, key, code, tw, 0)
                        || MatchesAt(cfg, p, key, code, tw, 1))
  {
    var key := DecodeSecret(cfg, p, secret).value;
    var tw := TimeWindow(cfg, timestamp).value;
    CheckCodeAcceptsExactlyTheWindow(cfg, p, secret, code, timestamp, 3);
    WindowCoversExactlyWindowSteps(3);
    OffsetsOfThree(cfg, p, key, code, tw);
  }

  lemma OffsetsOfThree(cfg: ConfigFields, p: Primitives, key: seq<bv8>, code: int, tw: Int64)
    requires WellFormedMac(p)
    ensures (exists j :: -1 <= j <= 1 && MatchesAt(cfg, p, key, code, tw, j))
       <==> (MatchesAt(cfg, p, key, code, tw, -1) || MatchesAt(cfg, p, key, code, tw, 0)
             || MatchesAt(cfg, p, key, code, tw, 1))
  {
    if exists j :: -1 <= j <= 1 && MatchesAt(cfg, p, key, code, tw, j) {
      var j :| -1 <= j <= 1 && MatchesAt(cfg, p, key, code, tw, j);
      assert j == -1 || j == 0 || j == 1;
    }
  }

  /** `getTotpPassword(secret, time)`: the code of the time step containing `time`. The
      decoder's `switch` rejects an unknown representation before it looks at the secret;
      a null secret then fails in the decoder. */
  function GetTotpPassword(cfg: ConfigFields, p: Primitives, secret: Option<string>, time: Int64): (r: Result<Int32>)
    requires WellFormedMac(p)
    ensures cfg.keyRepresentation == OtherRepresentation ==> r == Failure(IllegalArgument)
    ensures cfg.keyRepresentation != OtherRepresentation && secret.None? ==> r == Failure(NullReference)
    ensures r.Success? ==>
      && secret.Some?
      && var key := DecodeSecret(cfg, p, secret.value);
         var tw := TimeWindow(cfg, time);
         && key.Success? && tw.Success?
         && r == CalculateCode(cfg, p, key.value, tw.value)
         && 0 <= r.value < cfg.keyModulus
    ensures (&& ReliableMac(p) && cfg.keyModulus > 0 && cfg.timeStepSizeInMillis != 0
             && cfg.keyRepresentation != OtherRepresentation && secret.Some?
             && |DecodeSecret(cfg, p, secret.value).value| > 0)
            ==> r.Success?
  {
    if cfg.keyRepresentation == OtherRepresentation then Failure(IllegalArgument)
    else match secret
      case None => Failure(NullReference)
      case Some(s) =>
        var key := DecodeSecret(cfg, p, s).value;
        var tw :- TimeWindow(cfg, time);
        CodeComputable(cfg, p, key, tw);
        CalculateCode(cfg, p, key, tw)
  }

  /** `authorize(secret, verificationCode, time)`: a null secret is an argument error; a
      code outside `(0, keyModulus)` is refused before any HMAC is computed; otherwise the
      configured window is checked. */
  function Authorize(cfg: ConfigFields, p: Primitives, secret: Option<string>,
                     verificationCode: Int32, time: Int64): (r: Result<bool>)
    requires WellFormedMac(p)
    ensures secret.None? ==> r == Failure(IllegalArgument)
    ensures secret.Some? && (verificationCode <= 0 || verificationCode >= cfg.keyModulus) ==>
      r == Success(false)
    ensures secret.Some? && 0 < verificationCode < cfg.keyModulus ==>
      r == CheckCode(cfg, p, secret.value, verificationCode, time, cfg.windowSize)
  {
    match secret
    case None => Failure(IllegalArgument)
    case Some(s) =>
      if verificationCode <= 0 || verificationCode >= cfg.keyModulus then Success(false)
      else CheckCode(cfg, p, s, verificationCode, time, cfg.windowSize)
  }

  /** Out-of-bounds codes are decided without the primitives: any two HMACs and codecs
      give the same answer. */
  lemma AuthorizeBoundsNeedNoHmac(cfg: ConfigFields, p1: Primitives, p2: Primitives, secret: Option<string>,
                                  verificationCode: Int32, time: Int64)
    requires WellFormedMac(p1) && WellFormedMac(p2)
    requires verificationCode <= 0 || verificationCode >= cfg.keyModulus
    ensures Authorize(cfg, p1, secret, verificationCode, time) == Authorize(cfg, p2, secret, verificationCode, time)
  {
  }

  /** The password `getTotpPassword` issues is accepted by `authorize` at the same instant
      whenever the window includes the current step and the password is not 0, which the
      lower bound refuses even though it is a legitimate code. */
  lemma IssuedPasswordAuthorizes(cfg: ConfigFields, p: Primitives, secret: string, time: Int64)
    requires ReliableMac(p) && cfg.keyModulus > 0 && cfg.timeStepSizeInMillis != 0
    requires cfg.keyRepresentation != OtherRepresentation && cfg.windowSize >= 0
    ensures var pw := GetTotpPassword(cfg, p, Some(secret), time);
      if |DecodeSecret(cfg, p, secret).value| == 0 then pw == Failure(IllegalArgument)
      else
        && pw.Success?
        && Authorize(cfg, p, Some(secret), pw.value, time) == Success(pw.value != 0)
  {
    var key := DecodeSecret(cfg, p, secret).value;
    var tw := TimeWindow(cfg, time).value;
    var pw := GetTotpPassword(cfg, p, Some(secret), time);
    if |key| > 0 && pw.value != 0 {
      CheckCodeAcceptsExactlyTheWindow(cfg, p, secret, pw.value, time, cfg.windowSize);
      WindowCoversExactlyWindowSteps(cfg.windowSize);
      assert Wrap64(tw + 0) == tw;
      assert MatchesAt(cfg, p, key, pw.value, tw, 0);
    }
  }
}

=== FILE: repository.dfy ===
/** The credential-repository slot of `Authenticator`: a memoised service lookup that an
    explicit `setCredentialRepository` overrides. `R` is the opaque repository type, and
    the service loader is represented by the list of implementations it would yield. */
module Repository {
  import opened Wrappers

  /** The fields `credentialRepository` and `credentialRepositorySearched`. */
  datatype RepoSlot<R> = RepoSlot(repository: Option<R>, searched: bool)

  /** A new authenticator: nothing searched, nothing stored. */
  function InitialSlot<R>(): RepoSlot<R>
  {
    RepoSlot(None, false)
  }

  /** The reachable states: unresolved (nothing stored), or resolved to a repository or to
      none. An unsearched slot never holds a repository. */
  predicate Consistent<R>(s: RepoSlot<R>)
  {
    !s.searched ==> s.repository.None?
  }

  /** The slot after a lookup, and the repository the lookup returned. */
  datatype Lookup<R> = Lookup(slot: RepoSlot<R>, repository: Option<R>)

  /** `getCredentialRepository()`: the first call takes the first discovered implementation
      (keeping the stored value if there is none) and marks the slot searched; later calls
      return the stored value without discovering again. */
  function GetCredentialRepository<R(==)>(s: RepoSlot<R>, discovered: seq<R>): (l: Lookup<R>)
    ensures l.slot.searched && l.repository == l.slot.repository
    ensures s.searched ==> l.slot == s
    ensures !s.searched && Consistent(s) ==>
      l.repository == if |discovered| > 0 then Some(discovered[0]) else None
  {
    if s.searched then Lookup(s, s.repository)
    else
      var found := if |discovered| > 0 then Some(discovered[0]) else s.repository;
      Lookup(RepoSlot(found, true), found)
  }

  /** `setCredentialRepository(r)`: stores `r`, null included, and disables discovery. */
  function SetCredentialRepository<R>(s: RepoSlot<R>, r: Option<R>): (s': RepoSlot<R>)
    ensures s'.repository == r && s'.searched
    ensures Consistent(s')
  {
    RepoSlot(r, true)
  }

  /** `getValidCredentialRepository()`: the lookup, failing when it yields null. */
  function GetValidCredentialRepository<R(==)>(s: RepoSlot<R>, discovered: seq<R>): (p: (RepoSlot<R>, Result<R>))
    ensures var l := GetCredentialRepository(s, discovered);
      && p.0 == l.slot
      && (p.1.Failure? <==> l.repository.None?)
      && (p.1.Failure? ==> p.1.error == UnsupportedOperation)
      && (p.1.Success? ==> l.repository == Some(p.1.value))
  {
    var l := GetCredentialRepository(s, discovered);
    match l.repository
    case None => (l.slot, Failure(UnsupportedOperation))
    case Some(r) => (l.slot, Success(r))
  }

  /** Discovery runs at most once: a second lookup, whatever the loader would now yield,
      changes nothing and returns what the first returned. */
  lemma DiscoveryIsMemoised<R>(s: RepoSlot<R>, first: seq<R>, later: seq<R>)
    ensures var l1 := GetCredentialRepository(s, first);
      GetCredentialRepository(l1.slot, later) == l1
  {
  }

  /** After an explicit set, lookups return exactly the stored value, null included, and
      never consult the loader. */
  lemma SetOverridesDiscovery<R>(s: RepoSlot<R>, r: Option<R>, discovered: seq<R>)
    ensures var s' := SetCredentialRepository(s, r);
      GetCredentialRepository(s', discovered) == Lookup(s', r)
  {
  }

  /** Every operation keeps the slot in one of its three states, and no operation leads
      back to the unresolved state. */
  lemma OperationsKeepSlotConsistent<R>(s: RepoSlot<R>, r: Option<R>, discovered: seq<R>)
    requires Consistent(s)
    ensures Consistent(GetCredentialRepository(s, discovered).slot)
    ensures Consistent(SetCredentialRepository(s, r))
    ensures Consistent(GetValidCredentialRepository(s, discovered).0)
    ensures GetCredentialRepository(s, discovered).slot.searched
    ensures SetCredentialRepository(s, r).searched
  {
  }
}

=== FILE: scratch.dfy ===
/** Scratch codes: `calculateScratchCode`, `validateScratchCode`, `generateScratchCode`
    and `calculateScratchCodes`, with the random generator modelled as a finite stream of
    bytes that `nextBytes` consumes from the front. */
module Scratch {
  import opened Arith
  import opened Wrappers

  const SECRET_BITS: nat := 80
  const SCRATCH_CODES: nat := 5
  const SCRATCH_CODE_LENGTH: nat := 8
  /** `(int) Math.pow(10, SCRATCH_CODE_LENGTH)`. */
  const SCRATCH_CODE_MODULUS: nat := 100_000_000
  const SCRATCH_CODE_INVALID: int := -1
  const BYTES_PER_SCRATCH_CODE: nat := 4

  // ---------------------------------------------------------------- random stream

  /** The bytes one `nextBytes` call fills in, and what is left of the stream. */
  datatype Draw = Draw(bytes: seq<bv8>, rest: seq<bv8>)

  /** `nextBytes` on an `n`-byte buffer. */
  function NextBytes(stream: seq<bv8>, n: nat): (r: Result<Draw>)
    ensures r.Success? <==> |stream| >= n
    ensures r.Success? ==> |r.value.bytes| == n && r.value.bytes + r.value.rest == stream
    ensures r.Failure? ==> r.error == EntropyExhausted
  {
    if |stream| < n then Failure(EntropyExhausted)
    else Success(Draw(stream[..n], stream[n..]))
  }

  // ---------------------------------------------------------------- digits

  /** The number of decimal digits of `n`, leading zeros not counted. */
  function DecimalDigits(n: nat): nat
  {
    if n < 10 then 1 else 1 + DecimalDigits(n / 10)
  }

  lemma {:induction false} DigitsAtMost(n: nat, k: nat)
    requires k >= 1
    ensures DecimalDigits(n) <= k <==> n < Pow(10, k)
  {
    if k > 1 && n >= 10 {
      DigitsAtMost(n / 10, k - 1);
      assert n == 10 * (n / 10) + n % 10;
    } else if k > 1 {
      PowMonotone(10, 1, k);
    }
  }

  /** Below 10^8, a number has eight significant digits exactly when it is at least 10^7. */
  lemma EightDigitsFromTenMillion(n: int)
    ensures 0 <= n < SCRATCH_CODE_MODULUS ==>
      (n >= SCRATCH_CODE_MODULUS / 10 <==> DecimalDigits(n) == SCRATCH_CODE_LENGTH)
  {
    if 0 <= n < SCRATCH_CODE_MODULUS {
      assert Pow(10, 7) == 10_000_000;
      assert Pow(10, 8) == 100_000_000;
      DigitsAtMost(n, 7);
      DigitsAtMost(n, 8);
    }
  }

  /** `validateScratchCode(code)`: `code >= SCRATCH_CODE_MODULUS / 10`. On the values a
      scratch code can take before validation, it accepts exactly the codes with eight
      significant digits. */
  function ValidateScratchCode(code: Int32): (ok: bool)
    ensures 0 <= code < SCRATCH_CODE_MODULUS ==> (ok <==> DecimalDigits(code) == SCRATCH_CODE_LENGTH)
  {
    EightDigitsFromTenMillion(code);
    code >= SCRATCH_CODE_MODULUS / 10
  }

  // ---------------------------------------------------------------- one scratch code

  /** The `int` held by `calculateScratchCode`'s loop after `n` rounds of
      `(scratchCode << 8) + (b & 0xff)`; the shift and the addition each wrap to 32 bits. */
  function Accumulate32(buf: seq<bv8>, n: nat): Int32
    requires n <= |buf|
  {
    if n == 0 then 0 else Wrap32(Wrap32(Accumulate32(buf, n - 1) * 256) + buf[n - 1] as int)
  }

  lemma ModAdd(x: int, y: int, c: int, m: int)
    requires m > 0 && x % m == y % m
    ensures (x + c) % m == (y + c) % m
  {
    var r := x % m;
    assert x == m * (x / m) + r;
    assert y == m * (y / m) + r;
    assert r + c == m * ((r + c) / m) + (r + c) % m;
    LemmaModUnique(x + c, m, x / m + (r + c) / m, (r + c) % m);
    LemmaModUnique(y + c, m, y / m + (r + c) / m, (r + c) % m);
  }

  lemma ModShift(x: int, y: int)
    requires x % TWO_32 == y % TWO_32
    ensures (x * 256) % TWO_32 == (y * 256) % TWO_32
  {
    var r := x % TWO_32;
    assert x == TWO_32 * (x / TWO_32) + r;
    assert y == TWO_32 * (y / TWO_32) + r;
    var t := r * 256;
    assert t == TWO_32 * (t / TWO_32) + t % TWO_32;
    LemmaModUnique(x * 256, TWO_32, x / TWO_32 * 256 + t / TWO_32, t % TWO_32);
    LemmaModUnique(y * 256, TWO_32, y / TWO_32 * 256 + t / TWO_32, t % TWO_32);
  }

  /** Despite the wrap-around, the accumulated `int` agrees with the unsigned big-endian
      value of the bytes read so far, modulo 2^32. */
  lemma {:induction false} AccumulateIsBigEndian(buf: seq<bv8>, n: nat)
    requires n <= |buf|
    ensures Accumulate32(buf, n) % TWO_32 == BigEndian(buf[..n]) % TWO_32
  {
    if n > 0 {
      var a: int := Accumulate32(buf, n - 1);
      var b := buf[n - 1] as int;
      AccumulateIsBigEndian(buf, n - 1);
      assert buf[..n][..n - 1] == buf[..n - 1];
      var be := BigEndian(buf[..n - 1]);
      assert BigEndian(buf[..n]) == be * 256 + b;
      ModShift(a, be);
      ModAdd(Wrap32(a * 256), a * 256, 0, TWO_32);
      ModAdd(Wrap32(a * 256), be * 256, b, TWO_32);
    }
  }

  /** `x & 0x7FFFFFFF` of an `int` is its remainder modulo 2^31, which is decided by its
      remainder modulo 2^32. */
  lemma MaskAfterWrap(x: int)
    ensures (x % TWO_32) % TWO_31 == x % TWO_31
  {
    var q := x / TWO_32;
    var r := x % TWO_32;
    assert x == TWO_32 * q + r;
    assert r == TWO_31 * (r / TWO_31) + r % TWO_31;
    LemmaModUnique(x, TWO_31, 2 * q + r / TWO_31, r % TWO_31);
  }

  /** The candidate scratch code of a buffer: its first four bytes read as an unsigned
      big-endian number, bit 31 cleared, reduced modulo 10^8. */
  function ScratchValue(buf: seq<bv8>): nat
    requires |buf| >= BYTES_PER_SCRATCH_CODE
  {
    (BigEndian(buf[..4]) % TWO_31) % SCRATCH_CODE_MODULUS
  }

  /** A code that `validateScratchCode` accepts: eight significant digits. */
  predicate IsScratchCode(c: int)
  {
    10_000_000 <= c < SCRATCH_CODE_MODULUS
  }

  /** `calculateScratchCode(buffer)`: too short a buffer is an argument error; otherwise
      the candidate value if it has eight digits, and the invalid marker -1 if not. */
  function CalculateScratchCode(buf: seq<bv8>): (r: Result<Int32>)
    ensures r.Failure? <==> |buf| < BYTES_PER_SCRATCH_CODE
    ensures r.Failure? ==> r.error == IllegalArgument
    ensures r.Success? ==>
      var v := ScratchValue(buf);
      && (r.value == SCRATCH_CODE_INVALID || IsScratchCode(r.value))
      && (r.value != SCRATCH_CODE_INVALID ==> r.value == v)
      && (r.value == SCRATCH_CODE_INVALID <==> !IsScratchCode(v))
  {
    if |buf| < BYTES_PER_SCRATCH_CODE then Failure(IllegalArgument)
    else
      AccumulateIsBigEndian(buf, 4);
      MaskAfterWrap(Accumulate32(buf, 4));
      MaskAfterWrap(BigEndian(buf[..4]));
      var code := (Accumulate32(buf, 4) % TWO_31) % SCRATCH_CODE_MODULUS;
      if ValidateScratchCode(code) then Success(code) else Success(SCRATCH_CODE_INVALID)
  }

  // ---------------------------------------------------------------- retries

  /** The `j`-th four-byte draw of a stream. */
  function Chunk(stream: seq<bv8>, j: nat): seq<bv8>
    requires 4 * j + 4 <= |stream|
  {
    stream[4 * j..4 * j + 4]
  }

  /** The `j`-th draw of the stream gives no valid scratch code. */
  predicate Rejected(stream: seq<bv8>, j: nat)
    requires 4 * j + 4 <= |stream|
  {
    !IsScratchCode(ScratchValue(Chunk(stream, j)))
  }

  /** A code and the stream left after drawing it. */
  datatype Generated = Generated(code: Int32, rest: seq<bv8>)

  /** `g` is what drawing from `stream` until a valid code appears yields: the code of
      the last draw, every earlier draw rejected, and the stream after the last draw. */
  ghost predicate GeneratedFrom(stream: seq<bv8>, g: Generated)
  {
    var used := |stream| - |g.rest|;
    && IsScratchCode(g.code)
    && 4 <= used && used % 4 == 0
    && stream[used..] == g.rest
    && g.code == ScratchValue(Chunk(stream, used / 4 - 1))
    && forall j :: 0 <= j < used / 4 - 1 ==> Rejected(stream, j)
  }

  /** `generateScratchCode()`: draw four fresh bytes until they give a valid code. The
      source loops for ever; here the stream is finite and may run out. */
  function GenerateScratchCode(stream: seq<bv8>): (r: Result<Generated>)
    ensures r.Failure? ==> r.error == EntropyExhausted
    ensures r.Failure? <==> forall j: nat :: 4 * j + 4 <= |stream| ==> Rejected(stream, j)
    ensures r.Success? ==> IsScratchCode(r.value.code) && GeneratedFrom(stream, r.value)
    decreases |stream|
  {
    var d :- NextBytes(stream, BYTES_PER_SCRATCH_CODE);
    var c := CalculateScratchCode(d.bytes).value;
    if c != SCRATCH_CODE_INVALID then
      FirstDrawAccepted(stream, d, c);
      Success(Generated(c, d.rest))
    else
      var r := GenerateScratchCode(d.rest);
      AllRejectedOfTail(stream, d);
      if r.Success? then
        RetryKeepsChunks(stream, d, r.value);
        r
      else r
  }

  lemma FirstDrawAccepted(stream: seq<bv8>, d: Draw, c: Int32)
    requires |d.bytes| == 4 && d.bytes + d.rest == stream
    requires c == CalculateScratchCode(d.bytes).value && c != SCRATCH_CODE_INVALID
    ensures GeneratedFrom(stream, Generated(c, d.rest))
    ensures !Rejected(stream, 0)
  {
    assert d.bytes == Chunk(stream, 0);
    assert stream[4..] == d.rest;
  }

  /** After a rejected first draw, what the retry proved about the rest of the stream
      carries over to the whole stream, one draw further along. */
  lemma RetryKeepsChunks(stream: seq<bv8>, d: Draw, g: Generated)
    requires |d.bytes| == 4 && d.bytes + d.rest == stream
    requires CalculateScratchCode(d.bytes).value == SCRATCH_CODE_INVALID
    requires GeneratedFrom(d.rest, g)
    ensures GeneratedFrom(stream, g)
  {
    assert d.rest == stream[4..];
    var usedRest := |d.rest| - |g.rest|;
    ChunkOfTail(stream, usedRest / 4 - 1);
    assert stream[usedRest + 4..] == d.rest[usedRest..];
    assert Rejected(stream, 0) by {
      assert d.bytes == Chunk(stream, 0);
    }
    forall j | 0 < j < usedRest / 4
      ensures Rejected(stream, j)
    {
      assert Rejected(d.rest, j - 1);
      ChunkOfTail(stream, j - 1);
    }
  }

  /** After a rejected first draw, every draw of the stream is rejected exactly when every
      draw of the rest is. */
  lemma AllRejectedOfTail(stream: seq<bv8>, d: Draw)
    requires |d.bytes| == 4 && d.bytes + d.rest == stream
    requires CalculateScratchCode(d.bytes).value == SCRATCH_CODE_INVALID
    ensures (forall j: nat :: 4 * j + 4 <= |stream| ==> Rejected(stream, j))
        <==> (forall j: nat :: 4 * j + 4 <= |d.rest| ==> Rejected(d.rest, j))
  {
    assert d.rest == stream[4..];
    assert Rejected(stream, 0) by {
      assert d.bytes == Chunk(stream, 0);
    }
    if forall j: nat :: 4 * j + 4 <= |stream| ==> Rejected(stream, j) {
      forall j: nat | 4 * j + 4 <= |d.rest|
        ensures Rejected(d.rest, j)
      {
        ChunkOfTail(stream, j);
        assert Rejected(stream, j + 1);
      }
    }
    if forall j: nat :: 4 * j + 4 <= |d.rest| ==> Rejected(d.rest, j) {
      forall j: nat | 4 * j + 4 <= |stream|
        ensures Rejected(stream, j)
      {
        if j > 0 {
          ChunkOfTail(stream, j - 1);
          assert Rejected(d.rest, j - 1);
        }
      }
    }
  }

  /** Draw `j` of the stream after the first draw is draw `j + 1` of the whole stream. */
  lemma ChunkOfTail(stream: seq<bv8>, j: nat)
    requires 4 * j + 8 <= |stream|
    ensures Chunk(stream[4..], j) == Chunk(stream, j + 1)
  {
  }

  /** `c` is the candidate value of some four-byte draw of `stream`. */
  ghost predicate DrawnFrom(stream: seq<bv8>, c: int)
  {
    exists j: nat :: 4 * j + 4 <= |stream| && c == ScratchValue(Chunk(stream, j))
  }

  /** `rest` is what is left of `stream` after a whole number of draws. */
  ghost predicate LeftAfterDraws(stream: seq<bv8>, rest: seq<bv8>)
  {
    |rest| <= |stream| && (|stream| - |rest|) % 4 == 0 && stream[|stream| - |rest|..] == rest
  }

  /** A generated code is the value of a draw, and leaves the stream after whole draws. */
  lemma GeneratedIsDrawn(stream: seq<bv8>, g: Generated)
    ensures GeneratedFrom(stream, g) ==> DrawnFrom(stream, g.code) && LeftAfterDraws(stream, g.rest)
  {
    if GeneratedFrom(stream, g) {
      var used := |stream| - |g.rest|;
      var j: nat := used / 4 - 1;
      assert 4 * j + 4 <= |stream| && g.code == ScratchValue(Chunk(stream, j));
    }
  }

  // ---------------------------------------------------------------- the five codes

  /** `Arrays.copyOfRange(a, from, to)`: a start past the end throws; an end past the end
      pads with zero bytes. */
  function CopyOfRange(a: seq<bv8>, from: nat, to: nat): (r: Result<seq<bv8>>)
    requires from <= to
    ensures r.Failure? <==> from > |a|
    ensures r.Failure? ==> r.error == IndexOutOfBounds
    ensures r.Success? ==> |r.value| == to - from
    ensures r.Success? ==> forall i :: 0 <= i < to - from ==>
      r.value[i] == if from + i < |a| then a[from + i] else 0
  {
    if from > |a| then Failure(IndexOutOfBounds)
    else if to <= |a| then Success(a[from..to])
    else Success(a[from..] + seq(to - |a|, _ => 0))
  }

  /** Five codes and the stream left after any retries. */
  datatype Codes = Codes(codes: seq<Int32>, rest: seq<bv8>)

  /** The slice of the credential buffer that scratch code `k` is read from. */
  function SliceStart(k: nat): nat
  {
    SECRET_BITS / 8 + BYTES_PER_SCRATCH_CODE * k
  }

  /** Bytes `10 + 4k .. 14 + 4k` of the credential buffer. */
  function BufferSlice(buffer: seq<bv8>, k: nat): seq<bv8>
    requires SliceStart(k) + 4 <= |buffer|
  {
    buffer[SliceStart(k)..SliceStart(k) + 4]
  }

  /** The slice for code `k` lies inside the buffer and gives a valid code. */
  predicate SliceIsValid(buffer: seq<bv8>, k: nat)
  {
    SliceStart(k) + 4 <= |buffer| && IsScratchCode(ScratchValue(BufferSlice(buffer, k)))
  }

  /** Code `k` is the value of some draw of `stream` whenever its slice lies inside the
      buffer but is rejected; `DrawnInOrder` says which draw. */
  ghost predicate FromStreamWhenRejected(buffer: seq<bv8>, stream: seq<bv8>, codes: seq<Int32>, k: nat)
    requires k < |codes|
  {
    SliceStart(k) + 4 <= |buffer| && !SliceIsValid(buffer, k) ==> DrawnFrom(stream, codes[k])
  }

  /** Code `k` comes straight from its slice of the buffer whenever that slice is valid. */
  predicate FromBufferWhenValid(buffer: seq<bv8>, codes: seq<Int32>, k: nat)
    requires k < |codes|
  {
    SliceIsValid(buffer, k) ==> codes[k] == ScratchValue(BufferSlice(buffer, k))
  }

  /** One round of `calculateScratchCodes`' loop: the code of slice `k`, or a freshly
      generated one when the slice gives the invalid marker. */
  function NextScratchCode(buffer: seq<bv8>, k: nat, stream: seq<bv8>): (r: Result<Generated>)
    ensures r.Failure? ==> r.error == EntropyExhausted || (r.error == IndexOutOfBounds && SliceStart(k) > |buffer|)
    ensures r.Success? ==> IsScratchCode(r.value.code)
    ensures SliceIsValid(buffer, k) ==> r.Success?
    ensures r.Success? && SliceIsValid(buffer, k) ==>
      r.value.code == ScratchValue(BufferSlice(buffer, k)) && r.value.rest == stream
  {
    var slice :- CopyOfRange(buffer, SliceStart(k), SliceStart(k) + BYTES_PER_SCRATCH_CODE);
    CopyInsideIsSlice(buffer, k);
    var c := CalculateScratchCode(slice).value;
    if c != SCRATCH_CODE_INVALID then Success(Generated(c, stream))
    else GenerateScratchCode(stream)
  }

  /** A rejected slice inside the buffer is replaced by `generateScratchCode()`, a fresh
      draw from the stream; either way the round leaves the stream after whole draws. */
  lemma NextScratchCodeDraws(buffer: seq<bv8>, k: nat, stream: seq<bv8>)
    ensures SliceStart(k) + 4 <= |buffer| && !SliceIsValid(buffer, k) ==>
      NextScratchCode(buffer, k, stream) == GenerateScratchCode(stream)
    ensures var r := NextScratchCode(buffer, k, stream);
      r.Success? ==> LeftAfterDraws(stream, r.value.rest)
  {
    var r := NextScratchCode(buffer, k, stream);
    CopyInsideIsSlice(buffer, k);
    if r.Success? {
      if r.value.rest == stream {
        assert stream[|stream| - |stream|..] == stream;
      } else {
        GeneratedIsDrawn(stream, r.value);
      }
    }
  }

  lemma CopyInsideIsSlice(buffer: seq<bv8>, k: nat)
    ensures SliceStart(k) + 4 <= |buffer| ==>
      CopyOfRange(buffer, SliceStart(k), SliceStart(k) + 4) == Success(BufferSlice(buffer, k))
  {
  }

  /** The loop of `calculateScratchCodes` once `codes` are collected. */
  function ScratchCodesFrom(buffer: seq<bv8>, codes: seq<Int32>, stream: seq<bv8>): (r: Result<Codes>)
    requires |codes| <= SCRATCH_CODES
    requires forall i :: 0 <= i < |codes| ==> IsScratchCode(codes[i])
    ensures r.Failure? ==> r.error == EntropyExhausted || r.error == IndexOutOfBounds
    ensures |buffer| >= SliceStart(SCRATCH_CODES - 1) ==> r.Failure? ==> r.error == EntropyExhausted
    ensures r.Success? ==>
      && |r.value.codes| == SCRATCH_CODES
      && r.value.codes[..|codes|] == codes
      && (forall i :: 0 <= i < SCRATCH_CODES ==> IsScratchCode(r.value.codes[i]))
      && (forall k :: |codes| <= k < SCRATCH_CODES ==> FromBufferWhenValid(buffer, r.value.codes, k))
    ensures (forall k :: |codes| <= k < SCRATCH_CODES ==> SliceIsValid(buffer, k)) ==>
      r.Success? && r.value.rest == stream
    decreases SCRATCH_CODES - |codes|
  {
    if |codes| >= SCRATCH_CODES then Success(Codes(codes, stream))
    else
      var next :- NextScratchCode(buffer, |codes|, stream);
      var r := ScratchCodesFrom(buffer, codes + [next.code], next.rest);
      if r.Success? then
        AppendedCodeKept(buffer, codes, next.code, r.value.codes);
        r
      else r
  }

  /** What round `k` of the loop takes from the stream, which stands at `before` when the
      round starts and at `after` when it ends: nothing when slice `k` is valid; exactly one
      run of `generateScratchCode()`, ending in `code`, when a slice inside the buffer is
      rejected; whole draws otherwise. */
  ghost predicate RoundConsumes(buffer: seq<bv8>, k: nat, code: Int32, before: seq<bv8>, after: seq<bv8>)
  {
    if SliceIsValid(buffer, k) then after == before
    else if SliceStart(k) + 4 <= |buffer| then GeneratedFrom(before, Generated(code, after))
    else LeftAfterDraws(before, after)
  }

  /** Rounds `m` to the last take their draws from `stream` one after another: round `m + i`
      starts after `cuts[i]` four-byte draws, and `rest` starts after the last cut. */
  ghost predicate DrawnInTurn(buffer: seq<bv8>, stream: seq<bv8>, codes: seq<Int32>, rest: seq<bv8>,
                              m: nat, cuts: seq<nat>)
    requires |codes| == SCRATCH_CODES && m <= SCRATCH_CODES
  {
    && |cuts| == SCRATCH_CODES - m + 1
    && cuts[0] == 0
    && (forall i :: 0 <= i < |cuts| ==> 4 * cuts[i] <= |stream|)
    && stream[4 * cuts[SCRATCH_CODES - m]..] == rest
    && forall i :: 0 <= i < SCRATCH_CODES - m ==>
         RoundConsumes(buffer, m + i, codes[m + i], stream[4 * cuts[i]..], stream[4 * cuts[i + 1]..])
  }

  /** The five rounds consume the stream in turn, from its first byte up to `result.rest`. */
  ghost predicate DrawnInOrder(buffer: seq<bv8>, stream: seq<bv8>, result: Codes)
  {
    |result.codes| == SCRATCH_CODES && exists cuts :: DrawnInTurn(buffer, stream, result.codes, result.rest, 0, cuts)
  }

  /** The cuts of the loop from round `|codes|` on, for the stream that round starts with. */
  lemma {:induction false} ScratchCodesDrawInTurn(buffer: seq<bv8>, codes: seq<Int32>, stream: seq<bv8>)
    returns (cuts: seq<nat>)
    requires |codes| <= SCRATCH_CODES
    requires forall i :: 0 <= i < |codes| ==> IsScratchCode(codes[i])
    ensures var r := ScratchCodesFrom(buffer, codes, stream);
      r.Success? ==> DrawnInTurn(buffer, stream, r.value.codes, r.value.rest, |codes|, cuts)
    decreases SCRATCH_CODES - |codes|
  {
    var r := ScratchCodesFrom(buffer, codes, stream);
    cuts := [0];
    if r.Success? {
      if |codes| >= SCRATCH_CODES {
        assert stream[4 * 0..] == stream;
      } else {
        var m := |codes|;
        var next := NextScratchCode(buffer, m, stream).value;
        assert r == ScratchCodesFrom(buffer, codes + [next.code], next.rest);
        var later := ScratchCodesDrawInTurn(buffer, codes + [next.code], next.rest);
        NextScratchCodeDraws(buffer, m, stream);
        var result := r.value;
        assert result.codes[m] == (codes + [next.code])[m] by {
          assert result.codes[..m + 1] == codes + [next.code];
        }
        assert RoundConsumes(buffer, m, result.codes[m], stream, next.rest) by {
          if !SliceIsValid(buffer, m) && SliceStart(m) + 4 <= |buffer| {
            assert NextScratchCode(buffer, m, stream) == GenerateScratchCode(stream);
          }
        }
        cuts := PrependRound(buffer, stream, next.rest, result.codes, result.rest, m, later);
      }
    }
  }

  /** The cuts of rounds `m + 1` on, for the stream after round `m`, shifted by the draws
      round `m` took, are the cuts of rounds `m` on. */
  lemma PrependRound(buffer: seq<bv8>, stream: seq<bv8>, mid: seq<bv8>, codes: seq<Int32>, rest: seq<bv8>,
                     m: nat, later: seq<nat>) returns (cuts: seq<nat>)
    requires |codes| == SCRATCH_CODES && m < SCRATCH_CODES
    requires LeftAfterDraws(stream, mid)
    requires RoundConsumes(buffer, m, codes[m], stream, mid)
    requires DrawnInTurn(buffer, mid, codes, rest, m + 1, later)
    ensures DrawnInTurn(buffer, stream, codes, rest, m, cuts)
  {
    cuts := ShiftCuts(stream, mid, later);
    forall i | 0 <= i < SCRATCH_CODES - m
      ensures RoundConsumes(buffer, m + i, codes[m + i], stream[4 * cuts[i]..], stream[4 * cuts[i + 1]..])
    {
      if i > 0 {
        assert RoundConsumes(buffer, m + 1 + (i - 1), codes[m + 1 + (i - 1)],
                             mid[4 * later[i - 1]..], mid[4 * later[i - 1 + 1]..]);
      } else {
        assert mid[4 * later[0]..] == mid;
      }
    }
  }

  /** Cuts into `mid`, which is left of `stream` after whole draws, moved to cuts into
      `stream`, with a first cut at its start. */
  lemma ShiftCuts(stream: seq<bv8>, mid: seq<bv8>, later: seq<nat>) returns (cuts: seq<nat>)
    requires LeftAfterDraws(stream, mid)
    requires forall i :: 0 <= i < |later| ==> 4 * later[i] <= |mid|
    ensures |cuts| == |later| + 1 && cuts[0] == 0
    ensures forall i :: 0 <= i < |cuts| ==> 4 * cuts[i] <= |stream|
    ensures stream[4 * cuts[0]..] == stream
    ensures forall i :: 1 <= i < |cuts| ==> stream[4 * cuts[i]..] == mid[4 * later[i - 1]..]
  {
    var d := (|stream| - |mid|) / 4;
    assert 4 * d == |stream| - |mid|;
    cuts := [0] + seq(|later|, i requires 0 <= i < |later| => later[i] + d);
    forall i | 1 <= i < |cuts|
      ensures stream[4 * cuts[i]..] == mid[4 * later[i - 1]..]
    {
      assert stream[4 * d + 4 * later[i - 1]..] == stream[4 * d..][4 * later[i - 1]..];
    }
    assert stream[4 * cuts[0]..] == stream;
  }

  /** One round seen from the whole stream: it never moves back, and a rejected slice
      inside the buffer takes at least one draw, the last of which gives its code. */
  lemma RoundStep(buffer: seq<bv8>, k: nat, code: Int32, stream: seq<bv8>, a: nat, b: nat)
    requires 4 * a <= |stream| && 4 * b <= |stream|
    requires RoundConsumes(buffer, k, code, stream[4 * a..], stream[4 * b..])
    ensures a <= b
    ensures SliceStart(k) + 4 <= |buffer| && !SliceIsValid(buffer, k) ==>
      a < b && code == ScratchValue(Chunk(stream, b - 1))
  {
    if !SliceIsValid(buffer, k) && SliceStart(k) + 4 <= |buffer| {
      assert (4 * b - 4 * a) / 4 == b - a;
      assert Chunk(stream[4 * a..], b - a - 1) == Chunk(stream, b - 1);
    }
  }

  /** Cuts that never move back between neighbours never move back at all. */
  lemma {:induction false} CutsAdvance(cuts: seq<nat>, n: nat)
    requires n <= |cuts|
    requires forall i :: 0 <= i < |cuts| - 1 ==> cuts[i] <= cuts[i + 1]
    ensures forall i, j :: 0 <= i <= j < n ==> cuts[i] <= cuts[j]
  {
    if n > 1 {
      CutsAdvance(cuts, n - 1);
      assert cuts[n - 2] <= cuts[n - 1];
    }
  }

  /** `RoundStep` for every round of a schedule. */
  lemma ScheduleSteps(buffer: seq<bv8>, stream: seq<bv8>, result: Codes, cuts: seq<nat>)
    requires |result.codes| == SCRATCH_CODES
    requires DrawnInTurn(buffer, stream, result.codes, result.rest, 0, cuts)
    ensures forall n :: 0 <= n < SCRATCH_CODES ==>
      && cuts[n] <= cuts[n + 1]
      && (SliceStart(n) + 4 <= |buffer| && !SliceIsValid(buffer, n) ==>
            cuts[n] < cuts[n + 1] && result.codes[n] == ScratchValue(Chunk(stream, cuts[n + 1] - 1)))
  {
    forall n | 0 <= n < SCRATCH_CODES
      ensures cuts[n] <= cuts[n + 1]
      ensures SliceStart(n) + 4 <= |buffer| && !SliceIsValid(buffer, n) ==>
        cuts[n] < cuts[n + 1] && result.codes[n] == ScratchValue(Chunk(stream, cuts[n + 1] - 1))
    {
      assert RoundConsumes(buffer, 0 + n, result.codes[0 + n], stream[4 * cuts[n]..], stream[4 * cuts[n + 1]..]);
      RoundStep(buffer, n, result.codes[n], stream, cuts[n], cuts[n + 1]);
    }
  }

  /** In a schedule of the five rounds, the cuts only move forward, and every rejected slice
      inside the buffer takes draws of its own: at least one, after those of every earlier
      round, the last of them giving its code. The stream is consumed up to `rest`. */
  lemma DrawsInTurnAreSuccessive(buffer: seq<bv8>, stream: seq<bv8>, result: Codes, cuts: seq<nat>)
    requires |result.codes| == SCRATCH_CODES
    requires DrawnInTurn(buffer, stream, result.codes, result.rest, 0, cuts)
    ensures 4 * cuts[SCRATCH_CODES] == |stream| - |result.rest|
    ensures forall i, j :: 0 <= i <= j <= SCRATCH_CODES ==> cuts[i] <= cuts[j]
    ensures forall k :: 0 <= k < SCRATCH_CODES && SliceStart(k) + 4 <= |buffer| && !SliceIsValid(buffer, k) ==>
      cuts[k] < cuts[k + 1] && result.codes[k] == ScratchValue(Chunk(stream, cuts[k + 1] - 1))
  {
    ScheduleSteps(buffer, stream, result, cuts);
    CutsAdvance(cuts, |cuts|);
  }

  /** A schedule of the five rounds leaves the stream after whole draws, and every code
      taken for a rejected slice is the value of a draw of the stream. */
  lemma DrawnInOrderIsDrawn(buffer: seq<bv8>, stream: seq<bv8>, result: Codes)
    requires DrawnInOrder(buffer, stream, result)
    ensures LeftAfterDraws(stream, result.rest)
    ensures forall k :: 0 <= k < SCRATCH_CODES ==> FromStreamWhenRejected(buffer, stream, result.codes, k)
  {
    var cuts :| DrawnInTurn(buffer, stream, result.codes, result.rest, 0, cuts);
    DrawnInTurnIsDrawn(buffer, stream, result, cuts);
  }

  /** `DrawnInOrderIsDrawn` for one schedule. */
  lemma DrawnInTurnIsDrawn(buffer: seq<bv8>, stream: seq<bv8>, result: Codes, cuts: seq<nat>)
    requires |result.codes| == SCRATCH_CODES
    requires DrawnInTurn(buffer, stream, result.codes, result.rest, 0, cuts)
    ensures LeftAfterDraws(stream, result.rest)
    ensures forall k :: 0 <= k < SCRATCH_CODES ==> FromStreamWhenRejected(buffer, stream, result.codes, k)
  {
    DrawsInTurnAreSuccessive(buffer, stream, result, cuts);
    assert LeftAfterDraws(stream, result.rest) by {
      assert stream[4 * cuts[SCRATCH_CODES]..] == result.rest;
    }
    forall k | 0 <= k < SCRATCH_CODES && SliceStart(k) + 4 <= |buffer| && !SliceIsValid(buffer, k)
      ensures DrawnFrom(stream, result.codes[k])
    {
      var j: nat := cuts[k + 1] - 1;
      assert 4 * j + 4 <= |stream| && result.codes[k] == ScratchValue(Chunk(stream, j));
    }
  }

  /** Two rejected slices inside the buffer never share a draw: the earlier slice's code is
      the value of an earlier draw than the later slice's, and both draws lie before what
      is left of the stream. */
  lemma RejectedSlicesTakeDistinctDraws(buffer: seq<bv8>, stream: seq<bv8>, result: Codes, k1: nat, k2: nat)
    requires DrawnInOrder(buffer, stream, result)
    requires k1 < k2 < SCRATCH_CODES
    requires SliceStart(k2) + 4 <= |buffer| && !SliceIsValid(buffer, k1) && !SliceIsValid(buffer, k2)
    ensures exists j1: nat, j2: nat ::
      && j1 < j2 && 4 * j2 + 4 <= |stream| - |result.rest|
      && result.codes[k1] == ScratchValue(Chunk(stream, j1))
      && result.codes[k2] == ScratchValue(Chunk(stream, j2))
  {
    var cuts :| DrawnInTurn(buffer, stream, result.codes, result.rest, 0, cuts);
    DistinctDrawsOfCuts(buffer, stream, result, cuts, k1, k2);
  }

  /** `RejectedSlicesTakeDistinctDraws` for one schedule. */
  lemma DistinctDrawsOfCuts(buffer: seq<bv8>, stream: seq<bv8>, result: Codes, cuts: seq<nat>, k1: nat, k2: nat)
    requires |result.codes| == SCRATCH_CODES
    requires DrawnInTurn(buffer, stream, result.codes, result.rest, 0, cuts)
    requires k1 < k2 < SCRATCH_CODES
    requires SliceStart(k2) + 4 <= |buffer| && !SliceIsValid(buffer, k1) && !SliceIsValid(buffer, k2)
    ensures exists j1: nat, j2: nat ::
      && j1 < j2 && 4 * j2 + 4 <= |stream| - |result.rest|
      && result.codes[k1] == ScratchValue(Chunk(stream, j1))
      && result.codes[k2] == ScratchValue(Chunk(stream, j2))
  {
    DrawsInTurnAreSuccessive(buffer, stream, result, cuts);
    DistinctDrawsOfSteps(buffer, stream, result, cuts, k1, k2);
  }

  /** `RejectedSlicesTakeDistinctDraws` from what `DrawsInTurnAreSuccessive` says. */
  lemma DistinctDrawsOfSteps(buffer: seq<bv8>, stream: seq<bv8>, result: Codes, cuts: seq<nat>, k1: nat, k2: nat)
    requires |result.codes| == SCRATCH_CODES && |cuts| == SCRATCH_CODES + 1
    requires forall i :: 0 <= i < |cuts| ==> 4 * cuts[i] <= |stream|
    requires 4 * cuts[SCRATCH_CODES] == |stream| - |result.rest|
    requires forall i, j :: 0 <= i <= j <= SCRATCH_CODES ==> cuts[i] <= cuts[j]
    requires forall k :: 0 <= k < SCRATCH_CODES && SliceStart(k) + 4 <= |buffer| && !SliceIsValid(buffer, k) ==>
      cuts[k] < cuts[k + 1] && result.codes[k] == ScratchValue(Chunk(stream, cuts[k + 1] - 1))
    requires k1 < k2 < SCRATCH_CODES
    requires SliceStart(k2) + 4 <= |buffer| && !SliceIsValid(buffer, k1) && !SliceIsValid(buffer, k2)
    ensures exists j1: nat, j2: nat ::
      && j1 < j2 && 4 * j2 + 4 <= |stream| - |result.rest|
      && result.codes[k1] == ScratchValue(Chunk(stream, j1))
      && result.codes[k2] == ScratchValue(Chunk(stream, j2))
  {
    assert SliceStart(k1) + 4 <= |buffer|;
    assert cuts[k1 + 1] <= cuts[k2] && cuts[k2 + 1] <= cuts[SCRATCH_CODES];
    TwoDraws(stream, result.rest, result.codes[k1], result.codes[k2], cuts[k1 + 1] - 1, cuts[k2 + 1] - 1);
  }

  /** Draws `j1 < j2`, both before `rest`, witness the two draws. */
  lemma TwoDraws(stream: seq<bv8>, rest: seq<bv8>, c1: int, c2: int, j1: nat, j2: nat)
    requires j1 < j2 && 4 * j2 + 4 <= |stream| - |rest|
    requires c1 == ScratchValue(Chunk(stream, j1)) && c2 == ScratchValue(Chunk(stream, j2))
    ensures exists i1: nat, i2: nat ::
      && i1 < i2 && 4 * i2 + 4 <= |stream| - |rest|
      && c1 == ScratchValue(Chunk(stream, i1))
      && c2 == ScratchValue(Chunk(stream, i2))
  {
  }

  lemma AppendedCodeKept(buffer: seq<bv8>, codes: seq<Int32>, c: Int32, result: seq<Int32>)
    requires |codes| < SCRATCH_CODES && |result| == SCRATCH_CODES
    requires SliceIsValid(buffer, |codes|) ==> c == ScratchValue(BufferSlice(buffer, |codes|))
    requires result[..|codes| + 1] == codes + [c]
    requires forall k :: |codes| + 1 <= k < SCRATCH_CODES ==> FromBufferWhenValid(buffer, result, k)
    ensures result[..|codes|] == codes
    ensures forall k :: |codes| <= k < SCRATCH_CODES ==> FromBufferWhenValid(buffer, result, k)
  {
    assert result[|codes|] == (codes + [c])[|codes|];
    assert result[..|codes|] == result[..|codes| + 1][..|codes|];
  }

  /** `result` is what `calculateScratchCodes` may produce from `buffer` with the random
      generator at `stream`: five valid codes, each read from its slice of the buffer when
      that is valid and otherwise drawn from the stream, the rounds consuming the stream in
      turn and leaving `result.rest` after whole draws. */
  ghost predicate ScratchCodesOf(buffer: seq<bv8>, stream: seq<bv8>, result: Codes)
  {
    && |result.codes| == SCRATCH_CODES
    && (forall i :: 0 <= i < SCRATCH_CODES ==> IsScratchCode(result.codes[i]))
    && (forall k :: 0 <= k < SCRATCH_CODES ==> FromBufferWhenValid(buffer, result.codes, k))
    && LeftAfterDraws(stream, result.rest)
    && (forall k :: 0 <= k < SCRATCH_CODES ==> FromStreamWhenRejected(buffer, stream, result.codes, k))
    && DrawnInOrder(buffer, stream, result)
  }

  /** `calculateScratchCodes(buffer)`: exactly five valid codes, the `k`-th read from bytes
      `10 + 4k .. 14 + 4k` of the buffer whenever those give a valid code. */
  function CalculateScratchCodes(buffer: seq<bv8>, stream: seq<bv8>): (r: Result<Codes>)
    ensures |buffer| >= SliceStart(SCRATCH_CODES - 1) ==> r.Failure? ==> r.error == EntropyExhausted
    ensures r.Success? ==> ScratchCodesOf(buffer, stream, r.value)
    ensures (forall k :: 0 <= k < SCRATCH_CODES ==> SliceIsValid(buffer, k)) ==>
      r.Success? && r.value.rest == stream
  {
    ScratchCodesDrawnInOrder(buffer, stream);
    ScratchCodesFrom(buffer, [], stream)
  }

  /** From its first round, the loop consumes the stream in turn, so it leaves the stream
      after whole draws and takes a rejected slice's code from a draw of the stream. */
  lemma ScratchCodesDrawnInOrder(buffer: seq<bv8>, stream: seq<bv8>)
    ensures var r := ScratchCodesFrom(buffer, [], stream);
      r.Success? ==>
        && DrawnInOrder(buffer, stream, r.value)
        && LeftAfterDraws(stream, r.value.rest)
        && forall k :: 0 <= k < SCRATCH_CODES ==> FromStreamWhenRejected(buffer, stream, r.value.codes, k)
  {
    var cuts := ScratchCodesDrawInTurn(buffer, [], stream);
    var r := ScratchCodesFrom(buffer, [], stream);
    if r.Success? {
      DrawnInOrderIsDrawn(buffer, stream, r.value);
    }
  }
}

=== FILE: wrappers.dfy ===
/** Failure-compatible result types and the error kinds the authenticator raises. */
module Wrappers {

  /** A nullable value: `None` stands for a Java `null` reference. */
  datatype Option<+T> = None | Some(value: T)

  /** The exception classes the modelled code can raise, one constructor per class. */
  datatype Error =
    | IllegalArgument       // IllegalArgumentException
    | NullReference         // NullPointerException / ArgumentNullException
    | OperationFailed       // the authenticator's own exception hiding a JCE failure
    | DivideByZero          // ArithmeticException from `/` or `%` by zero
    | IndexOutOfBounds      // ArrayIndexOutOfBoundsException
    | UnsupportedOperation  // UnsupportedOperationException
    | EntropyExhausted      // the finite random stream of the model ran dry

  /** Either a value or the error that was thrown instead of producing it. */
  datatype Result<+R> = Success(value: R) | Failure(error: Error) {

    predicate IsFailure() {
      Failure?
    }

    function PropagateFailure<U>(): Result<U>
      requires Failure?
    {
      Failure(error)
    }

    function Extract(): R
      requires Success?
    {
      value
    }
  }
}
